=== FILE: README.md ===
# A verified model of a minimal HTTP/1.1 server's message layer

This project models the request and response layer of a small HTTP/1.1
server written in Rust. The server answers one request per connection. The
model has five modules:

- `Strings` models the parts of Rust's `str` that the server relies on:
  - `find`, `contains`, `split`, `split_once`, `join`;
  - `trim`, using Rust's full `char::is_whitespace` set;
  - `to_lowercase`, for ASCII letters only;
  - `parse::<usize>()` and the decimal `Display` of integers.
- `Requests` models the request side:
  - `RequestLine::parse_line` (`ParseLine`);
  - `Request::parse_header_line` (`ParseHeaderLine`);
  - `Request::parse_string_with_body` (`ParseStringWithBody`), including its header loop that stops at the first line not shaped like a header (`CollectHeaders`);
  - `Request::read_field_from_header` (`ReadFieldFromHeader`).

  The request-line and header-field shapes are a simplified form of sections 3.1.1 and 3.2 of RFC 7230.
- `Framing` models `Request::read_full_request` as a pure function over the finite byte sequence the connection delivers.
  - A byte is the character with the same code, as the body read's `*c as char` makes it, so a line read is the slice of the input it covers.
  - A line is blank when it is all whitespace, which is exactly when its trim is empty (`TrimEmpty`).
  - `Run` is the reading loop, step for step. It tracks `has_content`, `content_length`, the line buffer that is not cleared before the body read, and the trim applied to the body entry.
  - `TwoPhase` is an independent two-phase reader: it reads the header lines up to the first blank line, then makes one bounded raw read.
  - `RunIsTwoPhase` proves that the loop and the two-phase reader agree.
  - `ReadFullRequest` joins the pushed entries and parses them, as the server does.
- `Routing` models `Request::construct_response` (`ConstructResponse`).
  - It is a classification of the request target into an abstract `Outcome`: root, plain-text body, not found, file read, file write.
  - The directory files are served from is a parameter.
- `Responses` models `Response::new` (`New`), `set_response_body` (`SetResponseBody`) and `get_response_string` (`GetResponseString`).
  - `ParseResponse` reads a serialised response back.
  - Serialising and reading back are proved to be inverse, up to a length that is stored without a content type and so is never written.

A panic in the server is a `Fault` value in the model. Each of these is a `Fault`:

- an `unwrap` on a request line that does not parse;
- a Content-Length line without `": "` or with a value that is not a `usize`;
- indexing the target's segments when the target has no `/`.

Running out of input during the body read is also a `Fault`.

Some behaviours of the code that a reader might not expect, all modelled as written:

- **Path join.** The file path is `root + name` when the root does *not* end in `/`, and `root + "/" + name` when it does (`FilesPath`, `FilesPathShape`). So the root `/srv` and the name `a` give `/srva`, and the root `/srv/` gives `/srv//a`.
- **Body is trimmed.** The body is the blank line still in the buffer plus the declared bytes, trimmed. So it is not the declared bytes verbatim.
  - The body is the declared bytes, trimmed (`ReadBodyIs`). So a non-zero length whose bytes are all whitespace gives an empty body (`TrimEmpty`).
  - The body entry is also joined into the text that the header parser sees, so a body `name: value` that holds no LF becomes a header when every header line before it holds `": "` (`ReadFullRequestHeaders`, `BodyBecomesHeader`). A header line without `": "` stops the header loop before the body is reached.
- **Doubled spaces.** A request line with two spaces in a row is still accepted when the target is empty (`GET  HTTP/1.1`); `DoubledSpace` states exactly this.
- **Content-Length detection.** The length line is recognised by the case-sensitive prefix `Content-Length` on the raw line, with no colon required. Only the piece after the first `": "` and before any second one is parsed, so `Content-Length: 5: 6` declares 5 (`ContentLengthDeclares`).

## Model

| member | source | states |
|---|---|---|
| Strings.FindSpec | src/request.rs:269 | the position found holds the pattern, and no earlier position does |
| Strings.ContainsSpec | src/request.rs:265 | `contains` holds exactly when the pattern occurs somewhere |
| Strings.SplitSpec | src/request.rs:35 | joining the pieces of a split with the separator gives the text back, and no piece contains the separator |
| Strings.SplitCharUnique | src/request.rs:206 | splitting a `c`-joined sequence of `c`-free parts on `c` gives exactly those parts |
| Strings.SplitCharSingle | src/request.rs:206-207 | a split on `c` has a single piece exactly when `c` does not occur |
| Strings.SplitOnceSpec | src/request.rs:269 | `split_once` cuts at the leftmost occurrence: the text is `before + sep + after`, and `before` holds no occurrence |
| Strings.Trim | src/request.rs:157 | the trimmed text is no longer than the input and has no whitespace at either end |
| Strings.TrimSpec | src/request.rs:157 | trimming keeps one contiguous slice, with only whitespace outside it |
| Strings.TrimEmpty | src/request.rs:158 | a line trims to empty exactly when it is all whitespace |
| Strings.TrimRemovesTrailing | src/request.rs:157 | a whitespace character that can occur only at the end of the text does not survive trimming |
| Strings.TrimDropsLeadingWhitespace | src/request.rs:153-154 | whitespace in front of a text does not change its trim |
| Strings.ToLower | src/request.rs:94 | the result is lower-case and matches the input letter by letter, up to case |
| Strings.ToLowerEqual | src/request.rs:94 | two texts lower-case alike exactly when they agree up to case |
| Strings.ToLowerIdempotent | src/request.rs:271 | lower-casing twice is lower-casing once |
| Strings.NatToString | src/response.rs:55 | the decimal rendering is canonical (no leading zeros), and its digits evaluate to the number |
| Strings.CanonicalDecimalRoundTrip | src/response.rs:55 | every canonical digit string is the rendering of its own value |
| Strings.ParseUsizeAccepts | src/request.rs:172 | parsing accepts exactly an optional `+` followed by digits whose value fits in 64 bits |
| Strings.ParseRendered | src/request.rs:172 | parsing the rendering of a `usize` gives it back |
| Requests.ParseLine | src/request.rs:34-52 | an accepted request line has protocol HTTP/1.1 and a target without spaces |
| Requests.ParseFormatted | src/request.rs:34-52 | `METHOD SP target SP HTTP/1.1` parses back to its request line whenever the target has no space |
| Requests.ParsedIsFormatted | src/request.rs:34-52 | a line that parses is exactly its request line written out, so the target is the second token verbatim |
| Requests.ParseLineExactly | src/request.rs:34-52 | a line parses to a request line exactly when it is that request line written out with a space-free target |
| Requests.DoubledSpace | src/request.rs:35-37 | a line with two spaces in a row parses only with an empty target |
| Requests.ParseHeaderLineSpec | src/request.rs:264-272 | the result is None exactly when the line lacks `": "`; otherwise the line is `name: value`, `name` holds no `": "`, and the key is `name` lower-cased |
| Requests.ParseHeaderLineOf | src/request.rs:264-272 | `name: value` with a `": "`-free name parses to the lower-cased name and the untouched value, which may itself hold `": "` |
| Requests.HeaderPairs | src/request.rs:71-77 | the header loop parses a prefix of the lines, and it stops exactly at the first line that is not shaped like a header |
| Requests.InsertAllLastWins | src/request.rs:73 | after the inserts a name is present exactly when some pair carries it, and the last such pair gives its value |
| Requests.CollectHeadersIsInsertAll | src/request.rs:69-78 | the header loop inserts the parsed header prefix in order |
| Requests.CollectHeadersSpec | src/request.rs:69-78 | a stored header comes from a line before the first non-header line, and a later duplicate overwrites an earlier one |
| Requests.CollectLastHeader | src/request.rs:70-78 | when every line is shaped like a header, the last line `name: value` is stored as `value` under the lower-cased `name` |
| Requests.CollectHeadersLowerCase | src/request.rs:72-73 | every stored header name is lower-case |
| Requests.SectionLines | src/request.rs:64-65 | the lines before the first blank line are never an empty list, so taking the first line does not panic |
| Requests.ParseStringWithBodySpec | src/request.rs:63-91 | parsing fails exactly when the first section line does not parse; otherwise the request line is that line parsed, the body is the given body, and all header names are lower-case |
| Requests.ParseFirstSectionOnly | src/request.rs:64-65 | parsing any text gives what parsing its part before the first `\r\n\r\n` gives, so nothing from the first blank line on matters |
| Requests.ReadFieldCaseInsensitive | src/request.rs:93-96 | two field names that agree up to case give the same lookup result |
| Requests.ReadFieldFinds | src/request.rs:93-96 | in a parsed request, a field that matches a stored name up to case finds that name's value |
| Requests.LowerCaseFixed | src/request.rs:94 | lower-case text is its own lower-casing |
| Requests.ReadFieldMisses | src/request.rs:93-96 | in a parsed request, a lookup misses exactly when no stored name matches the field up to case |
| Framing.LineEnd | src/request.rs:148 | a line read consumes at least one byte unless the input is exhausted, and it never goes past the end |
| Framing.LineEndSpec | src/request.rs:148 | a line read stops just after the first LF, or at the end of the input |
| Framing.LineHasLFOnlyAtEnd | src/request.rs:148 | a line read holds an LF at most as its last character |
| Framing.TrimmedLineHasNoLF | src/request.rs:157 | a trimmed line read holds no LF |
| Framing.ContentLengthValue | src/request.rs:170-174 | the declared length fits in a `usize`, and a failure is either a missing value or a malformed one |
| Framing.ContentLengthDeclares | src/request.rs:170-172 | `name: n` with a `": "`-free name declares `n`, also with more `": "`-separated pieces after it, since only the second piece is parsed |
| Framing.ContentLengthMissing | src/request.rs:171 | the value is reported missing exactly when the line holds no `": "` |
| Framing.Run | src/request.rs:146-177 | the loop consumes input forward, and it reads a body entry exactly when the final length is non-zero |
| Framing.ScanHeaders | src/request.rs:157-169 | the header scan ends at a blank line, at or after where it started |
| Framing.ScanHeadersLines | src/request.rs:157-160 | every scanned line is non-blank once trimmed and holds no LF |
| Framing.TrimAllSpec | src/request.rs:157-160 | each collected line has no whitespace at either end, and it is empty exactly when the line read was all whitespace |
| Framing.RunIsTwoPhase | src/request.rs:146-177 | from any loop state, the single reading loop computes what the two-phase reader computes |
| Framing.FrameIsTwoPhase | src/request.rs:143-177 | `read_full_request`'s loop is the two-phase reader |
| Framing.FrameLines | src/request.rs:157-160 | the collected lines are the trimmed lines before the first blank line, each non-empty, trimmed and free of LF |
| Framing.FrameWithoutBody | src/request.rs:166-168 | without a non-zero declared length, reading stops right after the first blank line and no body is read |
| Framing.FrameWithBody | src/request.rs:149-155 | with a non-zero length `n`, exactly `n` raw bytes after the blank line are consumed and nothing past them; the body entry is the trim of those bytes, because the blank line still in the buffer trims away |
| Framing.FrameFails | src/request.rs:146-177 | reading fails exactly when a Content-Length line is malformed, or when the declared body runs past the end of the input |
| Framing.DeclaredIsLast | src/request.rs:170-174 | the final length is the one on the last Content-Length line |
| Framing.NoDeclaration | src/request.rs:170-174 | without Content-Length lines, the length stays unchanged |
| Framing.ReadFullRequest | src/request.rs:179-197 | a framing failure is the request's failure, and a request read successfully has only lower-case header names |
| Framing.FirstSectionLine | src/request.rs:188-195 | after the join, the first section line is the first line read |
| Framing.ReadFullRequestLine | src/request.rs:179-197 | the request line is the first line read parsed; with no line or an unparsable one, reading fails with a malformed request line; the body is the body entry, or empty without a length |
| Framing.BlankThenBody | src/request.rs:151-153 | the blank line left in the buffer followed by the `n` bytes read after it is the input from the blank line on |
| Framing.ReadFullRequestBody | src/request.rs:179-184 | the request's body is the body entry pushed last when the length is non-zero, and empty otherwise |
| Framing.ReadBodyIs | src/request.rs:149-155 | the request's body is the `n` declared bytes after the blank line, trimmed, and empty without a non-zero length |
| Framing.SplitJoinCRLF | src/request.rs:65 | splitting the CRLF-join of LF-free lines on CRLF gives the lines back |
| Framing.JoinNoBlankLine | src/request.rs:64 | the CRLF-join of LF-free lines, all non-empty except perhaps the last, holds no `\r\n\r\n` |
| Framing.EntriesSectionLines | src/request.rs:188-195 | the entries joined as `read_full_request` joins them come back as the section's lines, so the first is the request line and the rest feed the header loop |
| Framing.ReadFullRequestHeaders | src/request.rs:188-195 | with a body entry free of LF, the request's headers are those the header loop collects from every entry after the first, the body entry included |
| Framing.BodyBecomesHeader | src/request.rs:195 | a body `name: value` after header lines that all parse is stored under the lower-cased `name` with value `value` |
| Routing.SegmentsOf | src/request.rs:206 | the target `p0/p1/.../pk` has the segments `p1, ..., pk` |
| Routing.SegmentsSpec | src/request.rs:206-207 | a target has no segments exactly when it holds no `/`; the first part and the segments rejoin to the target; no segment holds `/` |
| Routing.FilesPathShape | src/request.rs:222-227 | the path starts with the root, ends with the name, and between them holds `/` when the root already ends in `/` and nothing otherwise |
| Routing.RouteRoot | src/request.rs:201-204 | the target `/` is the root page |
| Routing.RouteFails | src/request.rs:206-207 | routing aborts, on empty segments, exactly when the target holds no `/` |
| Routing.RouteEcho | src/request.rs:208-210 | `/echo/x/...` answers `x` as plain text, using only the segment right after `echo` |
| Routing.RouteUserAgent | src/request.rs:211-217 | `/user-agent` answers the `user-agent` header as plain text, or is not found without one |
| Routing.RouteFiles | src/request.rs:218-244 | `/files/name` reads `FilesPath(root, name)` for GET, and writes the request body there for POST |
| Routing.RouteMissingName | src/request.rs:208-221 | `/echo` with nothing after it, and `/files` with no name, are not found |
| Routing.RouteUnknown | src/request.rs:245-247 | any other first segment is not found |
| Routing.FileOutcomesUnderRoot | src/request.rs:218-244 | only `/files/name` touches a file, and that file's path starts with the root |
| Responses.New | src/response.rs:23-35 | the constructor stores its four arguments unchanged |
| Responses.SetResponseBody | src/response.rs:37-39 | only the body is replaced; status, content type and length are unchanged |
| Responses.ParseGetResponseString | src/response.rs:41-67 | reading a serialised response back gives the response, except for a length stored without a content type |
| Responses.GetResponseStringCanonical | src/response.rs:50-58 | a length stored without a content type does not change the string |
| Responses.GetResponseStringInjective | src/response.rs:41-67 | two responses serialise alike exactly when they agree on status, content type, the written length and body |
| Responses.StartsWithStatusLine | src/response.rs:44-48 | the string starts with `HTTP/1.1 200 OK\r\n` for Ok and `HTTP/1.1 404 Not Found\r\n` for NotFound |
| Responses.NoHeadersWithoutType | src/response.rs:50-59 | without a content type no header line is written, even when a length is set |
| Responses.LengthLineWritten | src/response.rs:50-58 | a Content-Length line appears exactly when there is a content type and a stored length; it carries the stored length, as decimal that a `usize` parser reads back |
| Responses.Ending | src/response.rs:59-66 | a non-empty body ends the string as `body\r\n`; an empty body leaves the string ending in the blank line |
| Responses.EmptyOk | src/response.rs:41-66 | an Ok response without content type or body is exactly `HTTP/1.1 200 OK\r\n\r\n` |
| Responses.PlainTextExample | src/response.rs:41-66 | a plain-text `hello` of length 5 serialises to the status line, both header lines, the blank line and `hello\r\n` |
| Responses.SetBodyOnlyChangesBody | src/response.rs:37-39 | after setting the body, the serialised response reads back with the new body and everything else unchanged |

## Left out

- The TCP listener, the per-connection threads and the socket writes in `src/main.rs`. These are I/O and concurrency.
- The served directory comes from a command-line argument held in a global (`PATH`). It is the parameter `root` of `ConstructResponse`.
- The file reads and writes (`read_from_file`, `create_file`, src/request.rs:274-280) and the 404 answer when they fail. These are file-system I/O. Routing stops at the `FileGet` / `FilePost` outcome.
- The response constructors that routing calls are not part of this model, so routing produces an abstract `Outcome` rather than a `Response`. These constructors are `Response::default`, `construct_ok_with_body`, `construct_not_found` and `construct_created`, together with `ContentType::OctetStream`. Gzip, `Content-Encoding` and the 201 status do not appear in the response code either.
- `println!` logging.
- I/O errors from `read_line` and `read_exact`. The input is a finite byte sequence. A body longer than the remaining input is an `UnexpectedEof` fault, rather than a read that blocks until more bytes arrive.
- The unused `parse_headers` (src/request.rs:250-262).
- Header lines are read one byte per character (Latin-1), where `read_line` decodes UTF-8. This is exact for the body read and for ASCII header lines. Invalid UTF-8, which makes `read_line` fail, is not modelled.
- Framing.ReadFullRequestHeaders: stated only for a body entry without LF. A body holding CRLF is split into further header lines, and a body holding a blank line ends the section early; no lemma states those cases.
- Strings.ToLower: lower-cases ASCII letters only. Rust's `to_lowercase` also maps non-ASCII letters, and can change a text's length in doing so.
- Strings.ParseUsize: assumes a 64-bit target, so `usize` is at most 2^64 - 1.

=== FILE: framing.dfy ===
/** Message framing: `Request::read_full_request` as a pure function over the
    finite sequence of bytes the connection delivers.  `read_line` takes the
    bytes up to and including the next LF (or up to the end of the input);
    `read_exact(n)` takes exactly `n` bytes or fails at the end of the input.
    A byte is the character with the same code (Latin-1), which is what the
    body read's `*c as char` makes of it; a line read is then just the slice
    of the input it covers. */
module Framing {
  import opened Strings
  import opened Requests

  /** A byte, as the character of the same code. */
  type byte = c: char | c as int < 256 witness '\0'

  const LF: byte := '\n'

  const CONTENT_LENGTH: string := "Content-Length"

  /* ---------------------------------------------------------------------- */
  /* Line reads                                                             */
  /* ---------------------------------------------------------------------- */

  /** Where a `read_line` starting at `pos` stops: just after the first LF at
      or after `pos`, or at the end of the input when there is none. */
  function LineEnd(input: seq<byte>, pos: nat): (e: nat)
    requires pos <= |input|
    ensures pos <= e <= |input|
    ensures pos < |input| ==> pos < e
    decreases |input| - pos
  {
    if pos == |input| then pos
    else if input[pos] == LF then pos + 1
    else LineEnd(input, pos + 1)
  }

  /** A line read ends just after its first LF, or at the end of the input. */
  lemma {:induction false} LineEndSpec(input: seq<byte>, pos: nat)
    requires pos <= |input|
    ensures var e := LineEnd(input, pos);
      && (forall i :: pos <= i < e - 1 ==> input[i] != LF)
      && (e == |input| || input[e - 1] == LF)
    decreases |input| - pos
  {
    if pos < |input| && input[pos] != LF {
      LineEndSpec(input, pos + 1);
    }
  }

  /** The text a `read_line` at `pos` appends to its buffer. */
  function LineAt(input: seq<byte>, pos: nat): string
    requires pos <= |input|
  {
    input[pos..LineEnd(input, pos)]
  }

  /** The line read at `pos` is all whitespace (end of input included), so
      it trims to nothing (`TrimEmpty`). */
  predicate IsBlankAt(input: seq<byte>, pos: nat)
    requires pos <= |input|
  {
    AllWhitespace(LineAt(input, pos))
  }

  /** The declared length on a Content-Length line: the second piece of the
      trimmed line split on ": ", parsed as a `usize`. */
  function ContentLengthValue(trimmed: string): (r: Result<nat>)
    ensures r.Ok? ==> r.value <= USIZE_MAX
    ensures r.Err? ==> r.fault == MissingContentLengthValue || r.fault == MalformedContentLength
  {
    var pieces := Split(trimmed, ": ");
    if |pieces| < 2 then Err(MissingContentLengthValue)
    else match ParseUsize(pieces[1])
      case None => Err(MalformedContentLength)
      case Some(n) => Ok(n)
  }

  /** `name: n`, with a `": "`-free name, declares `n`; so does the line with
      more `": "`-separated pieces after the number, because only the second
      piece is parsed. */
  lemma ContentLengthDeclares(name: string, n: nat, rest: string)
    requires !Contains(name, ": ") && n <= USIZE_MAX
    requires rest == "" || StartsWith(rest, ": ")
    ensures ContentLengthValue(name + ": " + NatToString(n) + rest) == Ok(n)
  {
    var d := NatToString(n);
    var t := name + ": " + d + rest;
    assert t == name + ": " + (d + rest);
    FindSpec(name, ": ");
    forall j | 0 <= j < |name|
      ensures !OccursAt(t, ": ", j)
    {
      if j + 2 <= |name| {
        assert t[j..j + 2] == name[j..j + 2];
        assert !OccursAt(name, ": ", j);
      } else {
        assert t[j + 1] == ':';
        assert t[j..j + 2][1] == t[j + 1];
      }
    }
    SplitCons(name, ": ", d + rest);
    NoColonInDigits(d);
    if rest == "" {
      assert d + rest == d;
      FindSpec(d, ": ");
    } else {
      var more := rest[2..];
      assert d + rest == d + ": " + more;
      SplitCons(d, ": ", more);
    }
    ParseRendered(n);
  }

  /** Helper: a match of `": "` cannot start inside a run of digits. */
  lemma NoColonInDigits(d: string)
    requires IsCanonicalDecimal(d)
    ensures forall x, j :: 0 <= j < |d| ==> !OccursAt(d + x, ": ", j)
  {
    forall x, j | 0 <= j < |d|
      ensures !OccursAt(d + x, ": ", j)
    {
      assert (d + x)[j] == d[j];
      if j + 2 <= |d + x| {
        assert (d + x)[j..j + 2][0] == (d + x)[j];
      }
    }
  }

  /** A Content-Length line fails for a missing value exactly when it holds
      no `": "`. */
  lemma ContentLengthMissing(trimmed: string)
    ensures var r := ContentLengthValue(trimmed);
      (r.Err? && r.fault == MissingContentLengthValue) <==> !Contains(trimmed, ": ")
  {
    FindSpec(trimmed, ": ");
  }

  /* ---------------------------------------------------------------------- */
  /* The reading loop                                                       */
  /* ---------------------------------------------------------------------- */

  /** The loop state of `read_full_request` between two line reads: the input
      position, the lines pushed so far, `has_content` and `content_length`. */
  datatype Reader = Reader(pos: nat, request: seq<string>, hasContent: bool, contentLength: nat)

  /** What the loop leaves behind: the pushed header lines, the trimmed body
      entry pushed last (if the body was read), the final `content_length`,
      and how many input bytes were consumed. */
  datatype Framed = Framed(lines: seq<string>, bodyLine: Option<string>, contentLength: nat, consumed: nat)

  /** The loop of `read_full_request` from state `st`.  A non-blank line is
      pushed trimmed and, if it starts with "Content-Length", sets the length;
      the first blank line either ends the loop or, with a non-zero length,
      switches to one raw read of that many bytes whose text is appended to
      the blank line still in the buffer, trimmed and pushed. */
  function Run(input: seq<byte>, st: Reader): (r: Result<Framed>)
    requires st.pos <= |input|
    requires st.contentLength > 0 ==> st.hasContent
    ensures r.Ok? ==> st.pos <= r.value.consumed <= |input|
    ensures r.Ok? ==> (r.value.bodyLine.Some? <==> r.value.contentLength > 0)
    decreases |input| - st.pos
  {
    var next := LineEnd(input, st.pos);
    var line := LineAt(input, st.pos);
    if !IsBlankAt(input, st.pos) then
      var trimmed := Trim(line);
      if StartsWith(line, CONTENT_LENGTH) then
        match ContentLengthValue(trimmed)
        case Err(f) => Err(f)
        case Ok(n) => Run(input, Reader(next, st.request + [trimmed], true, n))
      else
        Run(input, Reader(next, st.request + [trimmed], st.hasContent, st.contentLength))
    else if st.hasContent && st.contentLength != 0 then
      if next + st.contentLength > |input| then Err(UnexpectedEof)
      else
        var body := input[next..next + st.contentLength];
        Ok(Framed(st.request, Some(Trim(line + body)), st.contentLength, next + st.contentLength))
    else
      Ok(Framed(st.request, None, st.contentLength, next))
  }

  /** The framing part of `read_full_request`, from its initial state. */
  function Frame(input: seq<byte>): Result<Framed>
  {
    Run(input, Reader(0, [], false, 0))
  }

  /* ---------------------------------------------------------------------- */
  /* The two-phase reader                                                   */
  /* ---------------------------------------------------------------------- */

  /** Phase one: the raw lines from `pos` up to the first blank line, and
      the position where that blank line starts. */
  function ScanHeaders(input: seq<byte>, pos: nat): (r: (seq<string>, nat))
    requires pos <= |input|
    ensures pos <= r.1 <= |input| && IsBlankAt(input, r.1)
    decreases |input| - pos
  {
    if IsBlankAt(input, pos) then ([], pos)
    else
      var rest := ScanHeaders(input, LineEnd(input, pos));
      ([LineAt(input, pos)] + rest.0, rest.1)
  }

  /** Every line the scan collects is non-blank, and it holds no LF once
      trimmed. */
  lemma {:induction false} ScanHeadersLines(input: seq<byte>, pos: nat)
    requires pos <= |input|
    ensures forall i :: 0 <= i < |ScanHeaders(input, pos).0| ==>
      Trim(ScanHeaders(input, pos).0[i]) != "" && '\n' !in Trim(ScanHeaders(input, pos).0[i])
    decreases |input| - pos
  {
    if !IsBlankAt(input, pos) {
      var next := LineEnd(input, pos);
      var rest := ScanHeaders(input, next).0;
      var raw := ScanHeaders(input, pos).0;
      assert raw == [LineAt(input, pos)] + rest;
      TrimmedLineHasNoLF(input, pos);
      TrimEmpty(LineAt(input, pos));
      ScanHeadersLines(input, next);
      forall i | 0 <= i < |raw|
        ensures Trim(raw[i]) != "" && '\n' !in Trim(raw[i])
      {
        if i > 0 {
          assert raw[i] == rest[i - 1];
          assert Trim(rest[i - 1]) != "" && '\n' !in Trim(rest[i - 1]);
        } else {
          assert raw[0] == LineAt(input, pos);
        }
      }
    }
  }

  /** The length declared by the last Content-Length line among `raw`, or
      `current` when there is none; a malformed declaration aborts. */
  function Declared(raw: seq<string>, current: nat): Result<nat>
    decreases |raw|
  {
    if |raw| == 0 then Ok(current)
    else if StartsWith(raw[0], CONTENT_LENGTH) then
      match ContentLengthValue(Trim(raw[0]))
      case Err(f) => Err(f)
      case Ok(n) => Declared(raw[1..], n)
    else Declared(raw[1..], current)
  }

  /** The lines as `trim` leaves them. */
  function TrimAll(raw: seq<string>): seq<string>
  {
    seq(|raw|, i requires 0 <= i < |raw| => Trim(raw[i]))
  }

  /** Every trimmed line has no whitespace at either end, and it is empty
      exactly when the line read was all whitespace. */
  lemma TrimAllSpec(raw: seq<string>)
    ensures |TrimAll(raw)| == |raw|
    ensures forall i :: 0 <= i < |raw| ==>
      IsTrimmed(TrimAll(raw)[i]) && (TrimAll(raw)[i] == "" <==> AllWhitespace(raw[i]))
  {
    forall i | 0 <= i < |raw|
      ensures TrimAll(raw)[i] == "" <==> AllWhitespace(raw[i])
    {
      TrimEmpty(raw[i]);
    }
  }

  /** The reader in two phases: collect the header lines up to the first
      blank line; then, only if a non-zero length was declared, read exactly
      that many raw bytes after the blank line. */
  function TwoPhaseFrom(input: seq<byte>, pos: nat, request: seq<string>, current: nat): Result<Framed>
    requires pos <= |input|
  {
    var scan := ScanHeaders(input, pos);
    AfterScan(input, scan.0, scan.1, request, current)
  }

  /** What follows the scan of the header lines `raw` ending at the blank
      line at `blank`: the declared length, then phase two. */
  function AfterScan(input: seq<byte>, raw: seq<string>, blank: nat, request: seq<string>, current: nat): Result<Framed>
    requires blank <= |input|
  {
    match Declared(raw, current)
    case Err(f) => Err(f)
    case Ok(n) => ReadBody(input, blank, request + TrimAll(raw), n)
  }

  /** Phase two, after the blank line at `blank`: nothing more without a
      length, else exactly `n` raw bytes after the blank line, appended to
      it and trimmed. */
  function ReadBody(input: seq<byte>, blank: nat, lines: seq<string>, n: nat): Result<Framed>
    requires blank <= |input|
  {
    var headerEnd := LineEnd(input, blank);
    if n == 0 then Ok(Framed(lines, None, 0, headerEnd))
    else if headerEnd + n > |input| then Err(UnexpectedEof)
    else Ok(Framed(lines, Some(Trim(input[blank..headerEnd + n])), n, headerEnd + n))
  }

  function TwoPhase(input: seq<byte>): Result<Framed>
  {
    TwoPhaseFrom(input, 0, [], 0)
  }

  /** The blank line and the body bytes after it, read as one text. */
  lemma {:induction false} BlankThenBody(input: seq<byte>, blank: nat, n: nat)
    requires blank <= |input| && LineEnd(input, blank) + n <= |input|
    ensures var headerEnd := LineEnd(input, blank);
      input[blank..headerEnd + n] == LineAt(input, blank) + input[headerEnd..headerEnd + n]
  {
    var headerEnd := LineEnd(input, blank);
    assert input[blank..headerEnd] + input[headerEnd..headerEnd + n] == input[blank..headerEnd + n];
  }

  /** At a blank line the loop and the two-phase reader agree. */
  lemma {:induction false} RunAtBlank(input: seq<byte>, st: Reader)
    requires st.pos <= |input|
    requires st.contentLength > 0 ==> st.hasContent
    requires IsBlankAt(input, st.pos)
    ensures Run(input, st) == TwoPhaseFrom(input, st.pos, st.request, st.contentLength)
  {
    RunReadsBody(input, st);
    TwoPhaseAtBlank(input, st.pos, st.request, st.contentLength);
  }

  /** At a blank line the loop goes straight to phase two. */
  lemma {:induction false} RunReadsBody(input: seq<byte>, st: Reader)
    requires st.pos <= |input|
    requires st.contentLength > 0 ==> st.hasContent
    requires IsBlankAt(input, st.pos)
    ensures Run(input, st) == ReadBody(input, st.pos, st.request, st.contentLength)
  {
    var next := LineEnd(input, st.pos);
    var n := st.contentLength;
    if n != 0 && next + n <= |input| {
      BlankThenBody(input, st.pos, n);
    }
  }

  /** At a blank line the two-phase reader has no header lines to scan. */
  lemma {:induction false} TwoPhaseAtBlank(input: seq<byte>, pos: nat, request: seq<string>, n: nat)
    requires pos <= |input| && IsBlankAt(input, pos)
    ensures TwoPhaseFrom(input, pos, request, n) == ReadBody(input, pos, request, n)
  {
    assert ScanHeaders(input, pos) == ([], pos);
    assert Declared([], n) == Ok(n);
    assert request + TrimAll([]) == request;
  }

  /** One header line through `Declared`: a malformed length aborts, any
      other line carries the length it declares (or the current one) on. */
  lemma {:induction false} DeclaredStep(line: string, rest: seq<string>, current: nat)
    ensures var step := if StartsWith(line, CONTENT_LENGTH) then ContentLengthValue(Trim(line)) else Ok(current);
      && (step.Err? ==> Declared([line] + rest, current) == Err(step.fault))
      && (step.Ok? ==> Declared([line] + rest, current) == Declared(rest, step.value))
  {
    assert ([line] + rest)[0] == line;
    assert ([line] + rest)[1..] == rest;
  }

  lemma {:induction false} TrimAllCons(line: string, rest: seq<string>)
    ensures TrimAll([line] + rest) == [Trim(line)] + TrimAll(rest)
  {
  }

  /** At a non-blank line the two-phase reader fails with the line's
      malformed length, or carries on from the next line with the line
      pushed and the length it declares. */
  lemma {:induction false} TwoPhaseStep(input: seq<byte>, pos: nat, request: seq<string>, current: nat)
    requires pos <= |input| && !IsBlankAt(input, pos)
    ensures var line := LineAt(input, pos);
      var next := LineEnd(input, pos);
      var step := if StartsWith(line, CONTENT_LENGTH) then ContentLengthValue(Trim(line)) else Ok(current);
      && (step.Err? ==> TwoPhaseFrom(input, pos, request, current) == Err(step.fault))
      && (step.Ok? ==> TwoPhaseFrom(input, pos, request, current)
                       == TwoPhaseFrom(input, next, request + [Trim(line)], step.value))
  {
    var line := LineAt(input, pos);
    var next := LineEnd(input, pos);
    var rest := ScanHeaders(input, next);
    assert ScanHeaders(input, pos) == ([line] + rest.0, rest.1);
    AfterScanStep(input, line, rest.0, rest.1, request, current);
  }

  /** `TwoPhaseStep` after the scan: the first scanned line either aborts
      or is pushed, with the length it declares carried on. */
  lemma {:induction false} AfterScanStep(input: seq<byte>, line: string, rest: seq<string>, blank: nat,
                                         request: seq<string>, current: nat)
    requires blank <= |input|
    ensures var step := if StartsWith(line, CONTENT_LENGTH) then ContentLengthValue(Trim(line)) else Ok(current);
      && (step.Err? ==> AfterScan(input, [line] + rest, blank, request, current) == Err(step.fault))
      && (step.Ok? ==> AfterScan(input, [line] + rest, blank, request, current)
                       == AfterScan(input, rest, blank, request + [Trim(line)], step.value))
  {
    DeclaredStep(line, rest, current);
    TrimAllCons(line, rest);
    assert request + TrimAll([line] + rest) == (request + [Trim(line)]) + TrimAll(rest);
  }

  /** From any loop state, the single loop computes what the two-phase
      reader computes. */
  lemma {:induction false} RunIsTwoPhase(input: seq<byte>, st: Reader)
    requires st.pos <= |input|
    requires st.contentLength > 0 ==> st.hasContent
    ensures Run(input, st) == TwoPhaseFrom(input, st.pos, st.request, st.contentLength)
    decreases |input| - st.pos
  {
    var next := LineEnd(input, st.pos);
    var line := LineAt(input, st.pos);
    if IsBlankAt(input, st.pos) {
      RunAtBlank(input, st);
    } else {
      TwoPhaseStep(input, st.pos, st.request, st.contentLength);
      if StartsWith(line, CONTENT_LENGTH) {
        match ContentLengthValue(Trim(line))
        case Err(f) =>
        case Ok(n) =>
          RunIsTwoPhase(input, Reader(next, st.request + [Trim(line)], true, n));
      } else {
        RunIsTwoPhase(input, Reader(next, st.request + [Trim(line)], st.hasContent, st.contentLength));
      }
    }
  }

  /** The reading loop of `read_full_request` is the two-phase reader. */
  lemma {:induction false} FrameIsTwoPhase(input: seq<byte>)
    ensures Frame(input) == TwoPhase(input)
  {
    RunIsTwoPhase(input, Reader(0, [], false, 0));
  }

  /* ---------------------------------------------------------------------- */
  /* Properties of framing                                                  */
  /* ---------------------------------------------------------------------- */

  /** A line read by `read_line` holds an LF at most as its last character. */
  lemma {:induction false} LineHasLFOnlyAtEnd(input: seq<byte>, pos: nat)
    requires pos <= |input|
    ensures var line := LineAt(input, pos);
      forall k :: 0 <= k < |line| - 1 ==> line[k] != '\n'
  {
    var e := LineEnd(input, pos);
    var line := LineAt(input, pos);
    LineEndSpec(input, pos);
    forall k | 0 <= k < |line| - 1
      ensures line[k] != '\n'
    {
      assert line[k] == input[pos + k];
    }
  }

  /** A trimmed line read by `read_line` holds no LF. */
  lemma {:induction false} TrimmedLineHasNoLF(input: seq<byte>, pos: nat)
    requires pos <= |input|
    ensures '\n' !in Trim(LineAt(input, pos))
  {
    LineHasLFOnlyAtEnd(input, pos);
    TrimRemovesTrailing(LineAt(input, pos), '\n');
  }

  /** Every header line the reader collects is non-empty, trimmed and free of
      line breaks, and they are the trimmed lines before the first blank line. */
  lemma {:induction false} FrameLines(input: seq<byte>)
    ensures Frame(input).Ok? ==>
      var fr := Frame(input).value; var raw := ScanHeaders(input, 0).0;
      && fr.lines == TrimAll(raw)
      && forall i :: 0 <= i < |fr.lines| ==>
           fr.lines[i] != "" && IsTrimmed(fr.lines[i]) && '\n' !in fr.lines[i]
  {
    FrameIsTwoPhase(input);
    if Frame(input).Ok? {
      ScanHeadersLines(input, 0);
    }
  }

  /** Without a non-zero declared length, reading stops right after the first
      blank line (or at the end of the input) and no body is read. */
  lemma {:induction false} FrameWithoutBody(input: seq<byte>)
    requires Frame(input).Ok? && Frame(input).value.contentLength == 0
    ensures var blank := ScanHeaders(input, 0).1;
      && Frame(input).value.bodyLine == None
      && Frame(input).value.consumed == LineEnd(input, blank)
      && IsBlankAt(input, blank)
  {
    FrameIsTwoPhase(input);
  }

  /** With a non-zero length `n` declared before the blank line, exactly `n`
      raw bytes after the blank line are consumed and nothing past them; the
      body entry is those bytes, trimmed. */
  lemma {:induction false} FrameWithBody(input: seq<byte>)
    requires Frame(input).Ok? && Frame(input).value.contentLength > 0
    ensures var fr := Frame(input).value;
      var blank := ScanHeaders(input, 0).1;
      var headerEnd := LineEnd(input, blank);
      && Declared(ScanHeaders(input, 0).0, 0) == Ok(fr.contentLength)
      && fr.consumed == headerEnd + fr.contentLength <= |input|
      && fr.bodyLine == Some(Trim(input[headerEnd..headerEnd + fr.contentLength]))
  {
    FrameIsTwoPhase(input);
    TwoPhaseWithBody(input);
  }

  /** `FrameWithBody` for the two-phase reader. */
  lemma {:induction false} TwoPhaseWithBody(input: seq<byte>)
    requires TwoPhase(input).Ok? && TwoPhase(input).value.contentLength > 0
    ensures var fr := TwoPhase(input).value;
      var blank := ScanHeaders(input, 0).1;
      var headerEnd := LineEnd(input, blank);
      && Declared(ScanHeaders(input, 0).0, 0) == Ok(fr.contentLength)
      && fr.consumed == headerEnd + fr.contentLength <= |input|
      && fr.bodyLine == Some(Trim(input[headerEnd..headerEnd + fr.contentLength]))
  {
    var scan := ScanHeaders(input, 0);
    AfterScanWithBody(input, scan.0, scan.1, [], 0, TwoPhase(input).value);
  }

  /** `FrameWithBody` after the scan of the header lines. */
  lemma {:induction false} AfterScanWithBody(input: seq<byte>, raw: seq<string>, blank: nat,
                                             request: seq<string>, current: nat, fr: Framed)
    requires blank <= |input| && IsBlankAt(input, blank)
    requires AfterScan(input, raw, blank, request, current) == Ok(fr) && fr.contentLength > 0
    ensures var headerEnd := LineEnd(input, blank);
      && Declared(raw, current) == Ok(fr.contentLength)
      && fr.consumed == headerEnd + fr.contentLength <= |input|
      && fr.bodyLine == Some(Trim(input[headerEnd..headerEnd + fr.contentLength]))
  {
    var d := Declared(raw, current);
    assert d.Ok? && ReadBody(input, blank, request + TrimAll(raw), d.value) == Ok(fr);
    ReadBodyWithBody(input, blank, request + TrimAll(raw), d.value, fr);
  }

  /** Phase two with a non-zero length, after a blank line. */
  lemma {:induction false} ReadBodyWithBody(input: seq<byte>, blank: nat, lines: seq<string>, n: nat, fr: Framed)
    requires blank <= |input| && IsBlankAt(input, blank)
    requires ReadBody(input, blank, lines, n) == Ok(fr) && fr.contentLength > 0
    ensures var headerEnd := LineEnd(input, blank);
      && n == fr.contentLength
      && fr.consumed == headerEnd + n <= |input|
      && fr.bodyLine == Some(Trim(input[headerEnd..headerEnd + n]))
  {
    BodyAfterBlank(input, blank, n);
  }

  /** Helper: the blank line read together with the body bytes trims to the
      trimmed body bytes. */
  lemma {:induction false} BodyAfterBlank(input: seq<byte>, blank: nat, n: nat)
    requires blank <= |input| && IsBlankAt(input, blank)
    requires LineEnd(input, blank) + n <= |input|
    ensures var headerEnd := LineEnd(input, blank);
      Trim(input[blank..headerEnd + n]) == Trim(input[headerEnd..headerEnd + n])
  {
    var headerEnd := LineEnd(input, blank);
    BlankThenBody(input, blank, n);
    TrimDropsLeadingWhitespace(LineAt(input, blank), input[headerEnd..headerEnd + n]);
  }

  /** Reading fails exactly when a Content-Length line is malformed or the
      declared body runs past the end of the input. */
  lemma {:induction false} FrameFails(input: seq<byte>)
    ensures var (raw, blank) := ScanHeaders(input, 0);
      var d := Declared(raw, 0);
      Frame(input).Err? <==>
        d.Err? || (d.value > 0 && LineEnd(input, blank) + d.value > |input|)
  {
    FrameIsTwoPhase(input);
  }

  /** The final length is the one on the last Content-Length line. */
  lemma {:induction false} DeclaredIsLast(raw: seq<string>, current: nat, i: nat, n: nat)
    requires i < |raw| && StartsWith(raw[i], CONTENT_LENGTH)
    requires ContentLengthValue(Trim(raw[i])) == Ok(n)
    requires forall j :: i < j < |raw| ==> !StartsWith(raw[j], CONTENT_LENGTH)
    requires Declared(raw, current).Ok?
    ensures Declared(raw, current) == Ok(n)
    decreases |raw|
  {
    var rest := raw[1..];
    if i == 0 {
      NoDeclaration(rest, n);
    } else {
      assert rest[i - 1] == raw[i];
      assert forall j :: i - 1 < j < |rest| ==> rest[j] == raw[j + 1];
      var next := if StartsWith(raw[0], CONTENT_LENGTH)
        then ContentLengthValue(Trim(raw[0])).value else current;
      assert Declared(raw, current) == Declared(rest, next);
      DeclaredIsLast(rest, next, i - 1, n);
    }
  }

  /** Without Content-Length lines the current length stands. */
  lemma {:induction false} NoDeclaration(raw: seq<string>, current: nat)
    requires forall j :: 0 <= j < |raw| ==> !StartsWith(raw[j], CONTENT_LENGTH)
    ensures Declared(raw, current) == Ok(current)
    decreases |raw|
  {
    if |raw| > 0 {
      NoDeclaration(raw[1..], current);
    }
  }

  /* ---------------------------------------------------------------------- */
  /* The whole request                                                      */
  /* ---------------------------------------------------------------------- */

  /** The vector `read_full_request` pushes into: header lines, then the
      body entry if one was read. */
  function Entries(fr: Framed): seq<string> {
    fr.lines + (if fr.bodyLine.Some? then [fr.bodyLine.value] else [])
  }

  /** The text `read_full_request` parses: the entries joined by CRLF, or
      the single entry with a CRLF appended. */
  function JoinEntries(request: seq<string>): string {
    if |request| == 1 then request[0] + CRLF else Join(request, CRLF)
  }

  /** `Request::read_full_request`: frame the input, then parse the pushed
      entries joined by CRLF (a single entry gets a CRLF appended), with the
      last entry as the body when the length is non-zero.  The body entry is
      joined too, so it also passes through header parsing. */
  function ReadFullRequest(input: seq<byte>): (r: Result<Request>)
    ensures Frame(input).Err? ==> r == Err(Frame(input).fault)
    ensures r.Ok? ==> WellFormed(r.value)
  {
    match Frame(input)
    case Err(f) => Err(f)
    case Ok(fr) =>
      var request := Entries(fr);
      var body := if fr.contentLength > 0 then request[|request| - 1] else "";
      var text := JoinEntries(request);
      ParseStringWithBodySpec(text, body);
      ParseStringWithBody(text, body)
  }

  /** A match of a pattern starting with CRLF cannot start inside a line
      that holds no LF. */
  lemma {:induction false} NoMatchInsideLine(e: string, t: string, pat: string, j: int)
    requires '\n' !in e && |pat| >= 2 && pat[1] == '\n'
    requires 0 <= j < |e|
    ensures !OccursAt(e + CRLF + t, pat, j)
  {
    var s := e + CRLF + t;
    if j + 1 < |e| {
      assert s[j + 1] == e[j + 1];
    } else {
      assert s[j + 1] == '\r';
    }
    if j + |pat| <= |s| {
      assert s[j..j + |pat|][1] == s[j + 1];
    }
  }

  /** The first line of the section before the first blank line of
      `e + CRLF + t` is `e`, when `e` holds no LF. */
  lemma {:induction false} FirstSectionLine(e: string, t: string)
    requires '\n' !in e
    ensures SectionLines(e + CRLF + t)[0] == e
  {
    var s := e + CRLF + t;
    forall j | 0 <= j < |e|
      ensures !OccursAt(s, DOUBLE_CRLF, j)
    {
      NoMatchInsideLine(e, t, DOUBLE_CRLF, j);
    }
    assert !OccursAt(s, DOUBLE_CRLF, |e| + 1) by {
      assert s[|e| + 1] == '\n';
      if |e| + 5 <= |s| {
        assert s[|e| + 1..|e| + 5][0] == s[|e| + 1];
      }
    }
    FindSpec(s, DOUBLE_CRLF);
    SplitFirstPiece(s, DOUBLE_CRLF);
    var section := Split(s, DOUBLE_CRLF)[0];
    var f := Find(s, DOUBLE_CRLF);
    if f == Some(|e|) {
      assert section == e;
      forall k
        ensures !OccursAt(e, CRLF, k)
      {
        if 0 <= k && k + 2 <= |e| {
          assert e[k..k + 2][1] == e[k + 1];
        }
      }
      ContainsSpec(e, CRLF);
      SplitFirstPiece(e, CRLF);
    } else {
      var u := if f.Some? then s[|e| + 2..f.value] else t;
      assert section == e + CRLF + u;
      forall j | 0 <= j < |e|
        ensures !OccursAt(e + CRLF + u, CRLF, j)
      {
        NoMatchInsideLine(e, u, CRLF, j);
      }
      SplitCons(e, CRLF, u);
    }
  }

  /** The request line of a read request is the first line read; a request
      whose first line does not parse (or which has no line) aborts with
      `MalformedRequestLine`; the body is the body entry, or empty when no
      length was declared. */
  lemma {:induction false} ReadFullRequestLine(input: seq<byte>)
    requires Frame(input).Ok?
    ensures var fr := Frame(input).value; var r := ReadFullRequest(input);
      && (|fr.lines| == 0 ==> r == Err(MalformedRequestLine))
      && (|fr.lines| > 0 ==>
            (r.Ok? <==> ParseLine(fr.lines[0]).Some?)
            && (r.Ok? ==> Some(r.value.line) == ParseLine(fr.lines[0])))
      && (r.Ok? ==> r.value.body == (if fr.contentLength > 0 then fr.bodyLine.value else ""))
  {
    var fr := Frame(input).value;
    var request := Entries(fr);
    FrameLines(input);
    if |fr.lines| == 0 {
      FrameIsTwoPhase(input);
      var (raw, blank) := ScanHeaders(input, 0);
      assert raw == [] by {
        assert |TrimAll(raw)| == 0;
      }
      assert |request| == 0;
      assert Split("", " ") == [""];
      assert SectionLines("") == [""] by {
        assert Split("", DOUBLE_CRLF) == [""];
        assert Split("", CRLF) == [""];
      }
    } else {
      var e := fr.lines[0];
      assert request[0] == e;
      if |request| == 1 {
        FirstSectionLine(e, "");
        assert e + CRLF == e + CRLF + "";
      } else {
        var t := Join(request[1..], CRLF);
        assert Join(request, CRLF) == e + CRLF + t;
        FirstSectionLine(e, t);
      }
    }
  }

  /** The body of a read request is the declared number of bytes after the
      blank line, trimmed, or empty when no non-zero length was declared. */
  lemma {:induction false} ReadBodyIs(input: seq<byte>)
    requires ReadFullRequest(input).Ok?
    ensures Frame(input).Ok?
    ensures var n := Frame(input).value.contentLength;
      var headerEnd := LineEnd(input, ScanHeaders(input, 0).1);
      && (n > 0 ==> headerEnd + n <= |input|)
      && ReadFullRequest(input).value.body
         == (if n > 0 then Trim(input[headerEnd..headerEnd + n]) else "")
  {
    ReadFullRequestBody(input);
    if Frame(input).value.contentLength > 0 {
      FrameWithBody(input);
    }
  }

  /** The body of a read request is the framing's body entry, or empty
      without a declared length. */
  lemma {:induction false} ReadFullRequestBody(input: seq<byte>)
    requires ReadFullRequest(input).Ok?
    ensures Frame(input).Ok?
    ensures var fr := Frame(input).value;
      ReadFullRequest(input).value.body == (if fr.contentLength > 0 then fr.bodyLine.value else "")
  {
    ReadFullRequestLine(input);
  }

  /* ---------------------------------------------------------------------- */
  /* Headers of a read request                                              */
  /* ---------------------------------------------------------------------- */

  /** Splitting the CRLF-join of LF-free lines on CRLF gives the lines back. */
  lemma {:induction false} SplitJoinCRLF(parts: seq<string>)
    requires |parts| >= 1
    requires forall i :: 0 <= i < |parts| ==> '\n' !in parts[i]
    ensures Split(Join(parts, CRLF), CRLF) == parts
    decreases |parts|
  {
    var e := parts[0];
    if |parts| == 1 {
      assert Join(parts, CRLF) == e;
      FindSpec(e, CRLF);
      forall j
        ensures !OccursAt(e, CRLF, j)
      {
        if 0 <= j && j + 2 <= |e| {
          assert e[j..j + 2][1] == e[j + 1];
        }
      }
    } else {
      var t := Join(parts[1..], CRLF);
      assert Join(parts, CRLF) == e + CRLF + t;
      forall j | 0 <= j < |e|
        ensures !OccursAt(e + CRLF + t, CRLF, j)
      {
        NoMatchInsideLine(e, t, CRLF, j);
      }
      SplitCons(e, CRLF, t);
      forall i | 0 <= i < |parts[1..]|
        ensures '\n' !in parts[1..][i]
      {
        assert parts[1..][i] == parts[i + 1];
      }
      SplitJoinCRLF(parts[1..]);
      assert parts == [e] + parts[1..];
    }
  }

  /** The CRLF-join of LF-free lines, all non-empty except perhaps the last,
      holds no blank line. */
  lemma {:induction false} JoinNoBlankLine(parts: seq<string>)
    requires forall i :: 0 <= i < |parts| ==> '\n' !in parts[i]
    requires forall i :: 0 <= i < |parts| - 1 ==> parts[i] != ""
    ensures forall j :: !OccursAt(Join(parts, CRLF), DOUBLE_CRLF, j)
    decreases |parts|
  {
    var s := Join(parts, CRLF);
    if |parts| == 1 {
      forall j
        ensures !OccursAt(s, DOUBLE_CRLF, j)
      {
        if 0 <= j && j + 4 <= |s| {
          assert s[j..j + 4][1] == s[j + 1];
        }
      }
    } else if |parts| > 1 {
      var e := parts[0];
      var rest := parts[1..];
      var t := Join(rest, CRLF);
      assert s == e + CRLF + t;
      forall i | 0 <= i < |rest|
        ensures '\n' !in rest[i] && (i < |rest| - 1 ==> rest[i] != "")
      {
        assert rest[i] == parts[i + 1];
      }
      JoinNoBlankLine(rest);
      assert |t| >= 2 ==> t[1] != '\n' by {
        if |rest| > 1 {
          assert t == rest[0] + CRLF + Join(rest[1..], CRLF);
        }
      }
      forall j
        ensures !OccursAt(s, DOUBLE_CRLF, j)
      {
        if 0 <= j < |e| {
          NoMatchInsideLine(e, t, DOUBLE_CRLF, j);
        } else if j == |e| && j + 4 <= |s| {
          assert s[j..j + 4][3] == s[j + 3] == t[1];
        } else if j == |e| + 1 && j + 4 <= |s| {
          assert s[j..j + 4][0] == s[j];
        } else if j >= |e| + 2 && j + 4 <= |s| {
          assert s[j..j + 4] == t[j - |e| - 2..j - |e| + 2];
          assert !OccursAt(t, DOUBLE_CRLF, j - |e| - 2);
        }
      }
    }
  }

  /** Joined as `read_full_request` joins them, LF-free entries, all
      non-empty except perhaps the last, come back as the section's lines:
      the first entry is the request line and the others feed the header
      loop. */
  lemma EntriesSectionLines(request: seq<string>)
    requires |request| >= 1
    requires forall i :: 0 <= i < |request| ==> '\n' !in request[i]
    requires forall i :: 0 <= i < |request| - 1 ==> request[i] != ""
    ensures SectionLines(JoinEntries(request))[0] == request[0]
    ensures CollectHeaders(SectionLines(JoinEntries(request))[1..], map[])
            == CollectHeaders(request[1..], map[])
  {
    var text := JoinEntries(request);
    if |request| == 1 {
      var parts := [request[0], ""];
      assert text == Join(parts, CRLF);
      if request[0] != "" {
        JoinNoBlankLine(parts);
      }
      FindSpec(text, DOUBLE_CRLF);
      SplitJoinCRLF(parts);
      FindSpec("", ": ");
      ParseHeaderLineSpec("");
      assert SectionLines(text)[1..] == [""];
    } else {
      JoinNoBlankLine(request);
      FindSpec(text, DOUBLE_CRLF);
      SplitJoinCRLF(request);
    }
  }

  /** The headers of a read request are those the header loop collects from
      every entry after the first, the body entry included, when the body
      entry holds no LF. */
  lemma {:induction false} ReadFullRequestHeaders(input: seq<byte>)
    requires ReadFullRequest(input).Ok?
    requires Frame(input).Ok? && Frame(input).value.bodyLine.Some? ==>
      '\n' !in Frame(input).value.bodyLine.value
    ensures Frame(input).Ok? && |Frame(input).value.lines| > 0
    ensures ReadFullRequest(input).value.headers
            == CollectHeaders(Entries(Frame(input).value)[1..], map[])
  {
    ReadFullRequestLine(input);
    FrameLines(input);
    var fr := Frame(input).value;
    var request := Entries(fr);
    forall i | 0 <= i < |request|
      ensures '\n' !in request[i] && (i < |request| - 1 ==> request[i] != "")
    {
      if i < |fr.lines| {
        assert request[i] == fr.lines[i];
      } else {
        assert request[i] == fr.bodyLine.value;
      }
    }
    EntriesSectionLines(request);
  }

  /** A body of the shape `name: value` after header lines that all parse
      is stored under the lower-cased `name`. */
  lemma {:induction false} BodyBecomesHeader(input: seq<byte>, name: string, value: string)
    requires ReadFullRequest(input).Ok?
    requires Frame(input).Ok? && Frame(input).value.bodyLine == Some(name + ": " + value)
    requires '\n' !in name + ": " + value && !Contains(name, ": ")
    requires forall i :: 1 <= i < |Frame(input).value.lines| ==>
      ParseHeaderLine(Frame(input).value.lines[i]).Some?
    ensures ToLower(name) in ReadFullRequest(input).value.headers
    ensures ReadFullRequest(input).value.headers[ToLower(name)] == value
  {
    ReadFullRequestHeaders(input);
    var fr := Frame(input).value;
    var ls := Entries(fr)[1..];
    assert ls == fr.lines[1..] + [name + ": " + value];
    forall i | 0 <= i < |ls|
      ensures ParseHeaderLine(ls[i]).Some?
    {
      if i < |ls| - 1 {
        assert ls[i] == fr.lines[i + 1];
      } else {
        ParseHeaderLineOf(name, value);
      }
    }
    CollectLastHeader(ls, name, value);
  }
}

=== FILE: requests.dfy ===
/** The request model of the server: the request line, the header map, the
    parser that turns the framed request text into a `Request`, and the
    case-insensitive header lookup.  The request-line and header-field shapes
    are a simplified form of sections 3.1.1 and 3.2 of RFC 7230. */
module Requests {
  import opened Strings

  /** Every way in which handling one connection aborts before a response
      exists.  Each is a panic or an I/O error in the server. */
  datatype Fault =
    | MalformedRequestLine       // the request line does not parse (`unwrap` on `None`)
    | MissingContentLengthValue  // a Content-Length line without ": " (`nth(1).unwrap()`)
    | MalformedContentLength     // the Content-Length value is not a `usize`
    | UnexpectedEof              // the declared body is longer than the input
    | EmptySegments              // a target without '/', indexed at `splitted_url[0]`

  datatype Result<+T> = Ok(value: T) | Err(fault: Fault)

  const HTTP_PROTOCOL: string := "HTTP/1.1"

  datatype Method = Get | Post

  datatype Protocol = Http11

  datatype RequestLine = RequestLine(requestType: Method, url: string, protocol: Protocol)

  /** Header names (lower-cased) to values. */
  type Headers = map<string, string>

  datatype Request = Request(line: RequestLine, headers: Headers, body: string)

  function MethodName(m: Method): string {
    match m
    case Get => "GET"
    case Post => "POST"
  }

  /** The text of a request line: `METHOD SP TARGET SP HTTP/1.1`. */
  function FormatLine(rl: RequestLine): string {
    MethodName(rl.requestType) + " " + rl.url + " " + HTTP_PROTOCOL
  }

  /* ---------------------------------------------------------------------- */
  /* Request line                                                           */
  /* ---------------------------------------------------------------------- */

  /** `RequestLine::parse_line`: split on single spaces; exactly three tokens,
      the last `HTTP/1.1`, the first `GET` or `POST`. */
  function ParseLine(line: string): (r: Option<RequestLine>)
    ensures r.Some? ==> r.value.protocol == Http11 && ' ' !in r.value.url
  {
    var tokens := Split(line, " ");
    if |tokens| != 3 || tokens[2] != HTTP_PROTOCOL then None
    else
      SplitSpec(line, " ");
      CharOccurrence(tokens[1], ' ');
      if tokens[0] == "GET" then Some(RequestLine(Get, tokens[1], Http11))
      else if tokens[0] == "POST" then Some(RequestLine(Post, tokens[1], Http11))
      else None
  }

  /** Writing out a request line whose target has no space and parsing it
      gives the request line back. */
  lemma ParseFormatted(rl: RequestLine)
    requires ' ' !in rl.url && rl.protocol == Http11
    ensures ParseLine(FormatLine(rl)) == Some(rl)
  {
    var parts := [MethodName(rl.requestType), rl.url, HTTP_PROTOCOL];
    assert Join(parts[2..], " ") == HTTP_PROTOCOL;
    assert Join(parts[1..], " ") == rl.url + " " + HTTP_PROTOCOL;
    assert Join(parts, " ") == FormatLine(rl);
    SplitCharUnique(parts, ' ');
  }

  /** A line that parses is exactly its request line written out. */
  lemma ParsedIsFormatted(line: string)
    requires ParseLine(line).Some?
    ensures line == FormatLine(ParseLine(line).value)
  {
    var tokens := Split(line, " ");
    SplitSpec(line, " ");
    assert Join(tokens[2..], " ") == tokens[2];
    assert Join(tokens[1..], " ") == tokens[1] + " " + tokens[2];
  }

  /** A line parses to `rl` exactly when it is `rl` written out and the
      target holds no space. */
  lemma ParseLineExactly(line: string, rl: RequestLine)
    ensures ParseLine(line) == Some(rl) <==>
            line == FormatLine(rl) && ' ' !in rl.url && rl.protocol == Http11
  {
    if line == FormatLine(rl) && ' ' !in rl.url && rl.protocol == Http11 {
      ParseFormatted(rl);
    }
    if ParseLine(line) == Some(rl) {
      ParsedIsFormatted(line);
    }
  }

  /** A request line holding two spaces in a row parses only with an empty
      target (`GET  HTTP/1.1`); every other such line is rejected. */
  lemma DoubledSpace(line: string, i: nat)
    requires i + 1 < |line| && line[i] == ' ' && line[i + 1] == ' '
    ensures ParseLine(line).Some? ==> ParseLine(line).value.url == ""
  {
    if ParseLine(line).Some? {
      var rl := ParseLine(line).value;
      ParseLineExactly(line, rl);
      var m := MethodName(rl.requestType);
      assert line == m + " " + rl.url + " " + HTTP_PROTOCOL;
      assert ' ' !in m;
    }
  }

  /* ---------------------------------------------------------------------- */
  /* Header lines                                                           */
  /* ---------------------------------------------------------------------- */

  /** `Request::parse_header_line`: the lower-cased text before the first
      ": " and the untouched text after it; `None` without a ": ". */
  function ParseHeaderLine(line: string): Option<(string, string)>
  {
    if !Contains(line, ": ") then None
    else match SplitOnce(line, ": ")
      case None => None
      case Some((name, value)) => Some((ToLower(name), value))
  }

  /** A header line is rejected exactly when it holds no ": "; otherwise it
      is `name: value` with `name` free of ": ", and parses to the
      lower-cased name and the untouched value. */
  lemma ParseHeaderLineSpec(line: string)
    ensures var r := ParseHeaderLine(line);
      && (r.None? <==> !Contains(line, ": "))
      && (r.Some? ==>
        |r.value.1| + 2 <= |line|
        && var name := line[..|line| - |r.value.1| - 2];
        && line == name + ": " + r.value.1
        && r.value.0 == ToLower(name)
        && IsLowerCase(r.value.0)
        && !Contains(name, ": "))
  {
    SplitOnceSpec(line, ": ");
    if SplitOnce(line, ": ").Some? {
      var (name, value) := SplitOnce(line, ": ").value;
      assert line == name + (": " + value);
      forall j | 0 <= j
        ensures !OccursAt(name, ": ", j)
      {
        if j + 2 <= |name| {
          assert name[j..j + 2] == line[j..j + 2];
          assert !OccursAt(line, ": ", j);
        }
      }
      ContainsSpec(name, ": ");
      assert line[..|line| - |value| - 2] == name;
    }
  }

  /** `name: value` parses back to the lower-cased name and the value, for
      any name free of ": "; the value may itself contain ": ". */
  lemma ParseHeaderLineOf(name: string, value: string)
    requires !Contains(name, ": ")
    ensures ParseHeaderLine(name + ": " + value) == Some((ToLower(name), value))
  {
    var line := name + ": " + value;
    FindSpec(name, ": ");
    forall j | 0 <= j < |name|
      ensures !OccursAt(line, ": ", j)
    {
      if j + 2 <= |name| {
        assert line[j..j + 2] == name[j..j + 2];
        assert !OccursAt(name, ": ", j);
      } else {
        assert line[j + 1] == ':';
        assert line[j..j + 2][1] == ':';
      }
    }
    FindAfterPrefix(name, ": ", value);
    assert line[..|name|] == name;
    assert line[|name| + 2..] == value;
  }

  /* ---------------------------------------------------------------------- */
  /* Header map                                                             */
  /* ---------------------------------------------------------------------- */

  /** The header loop of `parse_string_with_body`: insert each parsed line,
      overwriting earlier values, and stop at the first line that is not
      shaped like a header. */
  function CollectHeaders(lines: seq<string>, acc: Headers): Headers
    decreases |lines|
  {
    if |lines| == 0 then acc
    else match ParseHeaderLine(lines[0])
      case None => acc
      case Some((name, value)) => CollectHeaders(lines[1..], acc[name := value])
  }

  /** The longest prefix of `lines` that parses as headers, parsed. */
  function HeaderPairs(lines: seq<string>): (r: seq<(string, string)>)
    ensures |r| <= |lines|
    ensures forall i :: 0 <= i < |r| ==> ParseHeaderLine(lines[i]) == Some(r[i])
    ensures |r| < |lines| ==> ParseHeaderLine(lines[|r|]).None?
    decreases |lines|
  {
    if |lines| == 0 then []
    else match ParseHeaderLine(lines[0])
      case None => []
      case Some(kv) => [kv] + HeaderPairs(lines[1..])
  }

  /** The position of the last pair named `name`, or -1. */
  function LastIndexOf(pairs: seq<(string, string)>, name: string): (r: int)
    ensures -1 <= r < |pairs|
    ensures r >= 0 ==> pairs[r].0 == name
    ensures forall j :: r < j < |pairs| ==> pairs[j].0 != name
    decreases |pairs|
  {
    if |pairs| == 0 then -1
    else if pairs[|pairs| - 1].0 == name then |pairs| - 1
    else LastIndexOf(pairs[..|pairs| - 1], name)
  }

  /** Inserting pairs in order, later ones overwriting earlier ones. */
  function InsertAll(acc: Headers, pairs: seq<(string, string)>): Headers
    decreases |pairs|
  {
    if |pairs| == 0 then acc
    else InsertAll(acc[pairs[0].0 := pairs[0].1], pairs[1..])
  }

  lemma {:induction false} InsertAllSnoc(acc: Headers, pairs: seq<(string, string)>, p: (string, string))
    ensures InsertAll(acc, pairs + [p]) == InsertAll(acc, pairs)[p.0 := p.1]
    decreases |pairs|
  {
    if |pairs| > 0 {
      assert (pairs + [p])[1..] == pairs[1..] + [p];
      InsertAllSnoc(acc[pairs[0].0 := pairs[0].1], pairs[1..], p);
    }
  }

  /** After inserting `pairs` into an empty map, a name is present exactly
      when some pair carries it, and its value is that of the last such pair. */
  lemma {:induction false} InsertAllLastWins(pairs: seq<(string, string)>, name: string)
    ensures var h := InsertAll(map[], pairs); var i := LastIndexOf(pairs, name);
      (name in h <==> i >= 0) && (name in h ==> h[name] == pairs[i].1)
    decreases |pairs|
  {
    if |pairs| > 0 {
      var init := pairs[..|pairs| - 1];
      var p := pairs[|pairs| - 1];
      assert pairs == init + [p];
      InsertAllSnoc(map[], init, p);
      InsertAllLastWins(init, name);
    }
  }

  /** The header loop equals inserting the parsed header prefix. */
  lemma {:induction false} CollectHeadersIsInsertAll(lines: seq<string>, acc: Headers)
    ensures CollectHeaders(lines, acc) == InsertAll(acc, HeaderPairs(lines))
    decreases |lines|
  {
    if |lines| > 0 && ParseHeaderLine(lines[0]).Some? {
      var kv := ParseHeaderLine(lines[0]).value;
      assert HeaderPairs(lines) == [kv] + HeaderPairs(lines[1..]);
      assert ([kv] + HeaderPairs(lines[1..]))[1..] == HeaderPairs(lines[1..]);
      CollectHeadersIsInsertAll(lines[1..], acc[kv.0 := kv.1]);
    }
  }

  /** The headers of a request section are exactly those of the lines before
      the first line that is not shaped like a header; nothing after it
      contributes; among duplicates the last one wins. */
  lemma CollectHeadersSpec(lines: seq<string>, name: string)
    ensures var h := CollectHeaders(lines, map[]);
      var pairs := HeaderPairs(lines); var i := LastIndexOf(pairs, name);
      && (name in h <==> i >= 0)
      && (name in h ==> ParseHeaderLine(lines[i]) == Some((name, h[name])))
      && (forall j :: i < j < |pairs| ==> ParseHeaderLine(lines[j]).value.0 != name)
  {
    CollectHeadersIsInsertAll(lines, map[]);
    InsertAllLastWins(HeaderPairs(lines), name);
  }

  /** When every line is shaped like a header, the last line's value is
      stored under its lower-cased name. */
  lemma {:induction false} CollectLastHeader(lines: seq<string>, name: string, value: string)
    requires |lines| >= 1
    requires forall i :: 0 <= i < |lines| ==> ParseHeaderLine(lines[i]).Some?
    requires lines[|lines| - 1] == name + ": " + value && !Contains(name, ": ")
    ensures ToLower(name) in CollectHeaders(lines, map[])
    ensures CollectHeaders(lines, map[])[ToLower(name)] == value
  {
    CollectHeadersIsInsertAll(lines, map[]);
    var pairs := HeaderPairs(lines);
    assert |pairs| == |lines|;
    ParseHeaderLineOf(name, value);
    var p := pairs[|pairs| - 1];
    assert p == (ToLower(name), value);
    assert pairs == pairs[..|pairs| - 1] + [p];
    InsertAllSnoc(map[], pairs[..|pairs| - 1], p);
  }

  /** Every name stored by the header loop is lower-case. */
  lemma {:induction false} CollectHeadersLowerCase(lines: seq<string>, acc: Headers)
    requires forall k :: k in acc ==> IsLowerCase(k)
    ensures forall k :: k in CollectHeaders(lines, acc) ==> IsLowerCase(k)
    decreases |lines|
  {
    if |lines| > 0 && ParseHeaderLine(lines[0]).Some? {
      var kv := ParseHeaderLine(lines[0]).value;
      ParseHeaderLineSpec(lines[0]);
      CollectHeadersLowerCase(lines[1..], acc[kv.0 := kv.1]);
    }
  }

  /* ---------------------------------------------------------------------- */
  /* Whole request                                                          */
  /* ---------------------------------------------------------------------- */

  /** Every stored header name is lower-case. */
  predicate WellFormed(req: Request) {
    forall k :: k in req.headers ==> IsLowerCase(k)
  }

  /** The request line followed by the header lines: the CRLF-separated lines
      of the text before the first blank line. */
  function SectionLines(text: string): (r: seq<string>)
    ensures |r| >= 1
  {
    Split(Split(text, DOUBLE_CRLF)[0], CRLF)
  }

  /** `Request::parse_string_with_body`: the request line is the first line
      before the first blank line, the headers come from the lines after it,
      and the body is attached as given. */
  function ParseStringWithBody(text: string, body: string): Result<Request>
  {
    var lines := SectionLines(text);
    match ParseLine(lines[0])
    case None => Err(MalformedRequestLine)
    case Some(line) => Ok(Request(line, CollectHeaders(lines[1..], map[]), body))
  }

  /** Parsing fails, with a malformed request line, exactly when the first
      line of the section does not parse; otherwise the request carries that
      line, the given body and only lower-case header names. */
  lemma ParseStringWithBodySpec(text: string, body: string)
    ensures var r := ParseStringWithBody(text, body);
      && (r.Err? <==> ParseLine(SectionLines(text)[0]).None?)
      && (r.Err? ==> r.fault == MalformedRequestLine)
      && (r.Ok? ==> Some(r.value.line) == ParseLine(SectionLines(text)[0]))
      && (r.Ok? ==> r.value.body == body && WellFormed(r.value))
  {
    CollectHeadersLowerCase(SectionLines(text)[1..], map[]);
  }

  /** Text from the first blank line on plays no part in the parsed request:
      parsing the whole text is parsing the part before its first `\r\n\r\n`. */
  lemma ParseFirstSectionOnly(text: string, body: string)
    ensures ParseStringWithBody(text, body)
            == ParseStringWithBody(Split(text, DOUBLE_CRLF)[0], body)
  {
    var head := Split(text, DOUBLE_CRLF)[0];
    SplitSpec(text, DOUBLE_CRLF);
    assert !Contains(head, DOUBLE_CRLF);
    assert Split(head, DOUBLE_CRLF) == [head];
  }

  /* ---------------------------------------------------------------------- */
  /* Header lookup                                                          */
  /* ---------------------------------------------------------------------- */

  /** `Request::read_field_from_header`: look the field up by its lower-cased name. */
  function ReadFieldFromHeader(req: Request, field: string): (r: Option<string>)
  {
    var key := ToLower(field);
    if key in req.headers then Some(req.headers[key]) else None
  }

  /** Lookup does not depend on the letter case of the field asked for. */
  lemma ReadFieldCaseInsensitive(req: Request, f: string, g: string)
    requires EqualIgnoringCase(f, g)
    ensures ReadFieldFromHeader(req, f) == ReadFieldFromHeader(req, g)
  {
    ToLowerEqual(f, g);
  }

  /** For a parsed request, a field is found exactly when a stored name
      matches it up to case, and then its value is that name's value. */
  lemma ReadFieldFinds(req: Request, field: string, name: string)
    requires WellFormed(req)
    requires name in req.headers
    ensures ReadFieldFromHeader(req, field) == Some(req.headers[name])
            <== EqualIgnoringCase(name, field)
    ensures EqualIgnoringCase(name, field) <== ToLower(field) == name
  {
    ToLowerEqual(name, field);
    if IsLowerCase(name) {
      assert EqualIgnoringCase(name, name) by {
        assert forall i :: 0 <= i < |name| ==> SameLetter(name[i], name[i]);
      }
      ToLowerEqual(name, name);
      LowerCaseFixed(name);
    }
  }

  /** Lower-case text is its own lower-casing. */
  lemma LowerCaseFixed(s: string)
    requires IsLowerCase(s)
    ensures ToLower(s) == s
  {
    ToLowerAt(s);
  }

  /** For a parsed request, a lookup misses exactly when no stored name
      matches the field up to case. */
  lemma ReadFieldMisses(req: Request, field: string)
    requires WellFormed(req)
    ensures ReadFieldFromHeader(req, field).None?
            <==> forall k :: k in req.headers ==> !EqualIgnoringCase(k, field)
  {
    forall k | k in req.headers && EqualIgnoringCase(k, field)
      ensures ToLower(field) in req.headers
    {
      LowerCaseFixed(k);
      ToLowerEqual(k, field);
    }
    if ToLower(field) in req.headers {
      var k := ToLower(field);
      LowerCaseFixed(k);
      ToLowerEqual(k, field);
    }
  }
}

=== FILE: responses.dfy ===
/** The response side: `Response` with its constructor, the body setter and
    `get_response_string`, the serialiser that writes the status line, the
    optional Content-Type and Content-Length header lines, the blank line
    and the body (shaped after section 3 of RFC 7230).  `ParseResponse`
    reads such a string back and is the serialiser's inverse. */
module Responses {
  import opened Strings

  /** The values of a Rust `usize` (64 bits). */
  type Usize = n: int | 0 <= n <= USIZE_MAX

  datatype StatusCode = Ok | NotFound

  datatype ContentType = PlainText

  datatype Response = Response(
    status: StatusCode,
    contentType: Option<ContentType>,
    contentLength: Option<Usize>,
    responseBody: string)

  const STATUS_OK: string := "HTTP/1.1 200 OK"
  const STATUS_NOT_FOUND: string := "HTTP/1.1 404 Not Found"
  const CONTENT_TYPE_PLAIN: string := "Content-Type: text/plain"
  const LENGTH_PREFIX: string := "Content-Length: "

  /** `Response::new`. */
  function New(status: StatusCode, contentType: Option<ContentType>,
               contentLength: Option<Usize>, body: string): (r: Response)
    ensures r.status == status && r.contentType == contentType
    ensures r.contentLength == contentLength && r.responseBody == body
  {
    Response(status, contentType, contentLength, body)
  }

  /** `Response::set_response_body`: the body is replaced, nothing else. */
  function SetResponseBody(r: Response, body: string): (r': Response)
    ensures r'.responseBody == body
    ensures r'.status == r.status && r'.contentType == r.contentType
    ensures r'.contentLength == r.contentLength
  {
    r.(responseBody := body)
  }

  /* ---------------------------------------------------------------------- */
  /* Serialising                                                            */
  /* ---------------------------------------------------------------------- */

  function StatusLine(s: StatusCode): string {
    match s
    case Ok => STATUS_OK
    case NotFound => STATUS_NOT_FOUND
  }

  /** The header lines: Content-Type for plain text, followed by the length
      only when there is a content type at all. */
  function HeaderLines(contentType: Option<ContentType>, contentLength: Option<Usize>): string {
    if contentType == Some(PlainText) then
      CONTENT_TYPE_PLAIN + CRLF
      + (if contentLength.Some? then LENGTH_PREFIX + NatToString(contentLength.value) + CRLF else "")
    else ""
  }

  /** The body followed by CRLF, or nothing for an empty body. */
  function BodyPart(body: string): string {
    if body == "" then "" else body + CRLF
  }

  /** `Response::get_response_string`. */
  function GetResponseString(r: Response): string {
    StatusLine(r.status) + CRLF
    + HeaderLines(r.contentType, r.contentLength)
    + CRLF
    + BodyPart(r.responseBody)
  }

  /* ---------------------------------------------------------------------- */
  /* Reading a response string back                                         */
  /* ---------------------------------------------------------------------- */

  /** The status line and what follows its CRLF. */
  function ParseStatus(s: string): Option<(StatusCode, string)> {
    if StartsWith(s, STATUS_OK + CRLF) then Some((Ok, s[|STATUS_OK| + 2..]))
    else if StartsWith(s, STATUS_NOT_FOUND + CRLF) then Some((NotFound, s[|STATUS_NOT_FOUND| + 2..]))
    else None
  }

  /** A Content-Length line: canonical decimal digits up to the next CRLF. */
  function ParseLengthLine(s: string): Option<(Usize, string)> {
    if !StartsWith(s, LENGTH_PREFIX) then None
    else
      var t := s[|LENGTH_PREFIX|..];
      match Find(t, CRLF)
      case None => None
      case Some(i) =>
        var digits := t[..i];
        if IsCanonicalDecimal(digits) && DigitsValue(digits) <= USIZE_MAX
        then Some((DigitsValue(digits), t[i + 2..]))
        else None
  }

  /** The header lines, and what follows them. */
  function ParseHeaders(s: string): Option<(Option<ContentType>, Option<Usize>, string)> {
    if StartsWith(s, CONTENT_TYPE_PLAIN + CRLF) then
      var t := s[|CONTENT_TYPE_PLAIN| + 2..];
      if StartsWith(t, LENGTH_PREFIX) then
        match ParseLengthLine(t)
        case None => None
        case Some((n, rest)) => Some((Some(PlainText), Some(n), rest))
      else Some((Some(PlainText), None, t))
    else Some((None, None, s))
  }

  /** The blank line and the body. */
  function ParseBody(s: string): Option<string> {
    if !StartsWith(s, CRLF) then None
    else
      var b := s[2..];
      if b == "" then Some("")
      else if |b| > 2 && EndsWith(b, CRLF) then Some(b[..|b| - 2])
      else None
  }

  /** The response a serialised string describes, if it is one. */
  function ParseResponse(s: string): Option<Response> {
    match ParseStatus(s)
    case None => None
    case Some((status, afterStatus)) =>
      match ParseHeaders(afterStatus)
      case None => None
      case Some((contentType, contentLength, afterHeaders)) =>
        match ParseBody(afterHeaders)
        case None => None
        case Some(body) => Some(Response(status, contentType, contentLength, body))
  }

  /** What the serialiser can show of a response: a length without a content
      type is never written. */
  function Canonical(r: Response): Response {
    if r.contentType.None? then r.(contentLength := None) else r
  }

  /* ---------------------------------------------------------------------- */
  /* Round trip                                                             */
  /* ---------------------------------------------------------------------- */

  lemma ParseStatusOf(status: StatusCode, rest: string)
    ensures ParseStatus(StatusLine(status) + CRLF + rest) == Some((status, rest))
  {
    var s := StatusLine(status) + CRLF + rest;
    match status
    case Ok =>
      assert s[..|STATUS_OK| + 2] == STATUS_OK + CRLF;
      assert s[|STATUS_OK| + 2..] == rest;
    case NotFound =>
      assert s[..|STATUS_OK| + 2] != STATUS_OK + CRLF by {
        assert s[9] == '4';
      }
      assert s[..|STATUS_NOT_FOUND| + 2] == STATUS_NOT_FOUND + CRLF;
      assert s[|STATUS_NOT_FOUND| + 2..] == rest;
  }

  /** Decimal digits hold no CR, so the first CRLF after them is the one
      that ends the line. */
  lemma FindAfterDigits(d: string, rest: string)
    requires AllDigits(d)
    ensures Find(d + CRLF + rest, CRLF) == Some(|d|)
  {
    var s := d + CRLF + rest;
    forall j | 0 <= j < |d|
      ensures !OccursAt(s, CRLF, j)
    {
      assert s[j] == d[j];
      assert IsDigit(d[j]);
      if j + 2 <= |s| {
        assert s[j..j + 2][0] == s[j];
      }
    }
    FindAfterPrefix(d, CRLF, rest);
  }

  lemma ParseLengthLineOf(n: Usize, rest: string)
    ensures ParseLengthLine(LENGTH_PREFIX + NatToString(n) + CRLF + rest) == Some((n, rest))
  {
    var d := NatToString(n);
    var s := LENGTH_PREFIX + d + CRLF + rest;
    assert s[..|LENGTH_PREFIX|] == LENGTH_PREFIX;
    var t := s[|LENGTH_PREFIX|..];
    assert t == d + CRLF + rest;
    FindAfterDigits(d, rest);
    assert t[..|d|] == d;
    assert t[|d| + 2..] == rest;
  }

  lemma ParseHeadersOf(contentType: Option<ContentType>, contentLength: Option<Usize>, rest: string)
    requires StartsWith(rest, CRLF)
    ensures var r := Canonical(Response(Ok, contentType, contentLength, ""));
      ParseHeaders(HeaderLines(contentType, contentLength) + rest)
        == Some((r.contentType, r.contentLength, rest))
  {
    if contentType.Some? {
      assert contentType.value == PlainText;
      if contentLength.Some? {
        ParseTypeAndLength(contentLength.value, rest);
        assert HeaderLines(contentType, contentLength) + rest
          == CONTENT_TYPE_PLAIN + CRLF + LENGTH_PREFIX + NatToString(contentLength.value) + CRLF + rest;
      } else {
        ParseTypeOnly(rest);
        assert HeaderLines(contentType, contentLength) + rest == CONTENT_TYPE_PLAIN + CRLF + rest;
      }
    } else {
      ParseNoHeaders(rest);
      assert HeaderLines(contentType, contentLength) + rest == rest;
    }
  }

  lemma ParseTypeAndLength(n: Usize, rest: string)
    requires StartsWith(rest, CRLF)
    ensures ParseHeaders(CONTENT_TYPE_PLAIN + CRLF + LENGTH_PREFIX + NatToString(n) + CRLF + rest)
      == Some((Some(PlainText), Some(n), rest))
  {
    var head := CONTENT_TYPE_PLAIN + CRLF;
    var t := LENGTH_PREFIX + NatToString(n) + CRLF + rest;
    var s := CONTENT_TYPE_PLAIN + CRLF + LENGTH_PREFIX + NatToString(n) + CRLF + rest;
    assert s == head + t;
    assert s[..|head|] == head;
    assert s[|head|..] == t;
    assert t[..|LENGTH_PREFIX|] == LENGTH_PREFIX;
    ParseLengthLineOf(n, rest);
  }

  lemma ParseTypeOnly(rest: string)
    requires StartsWith(rest, CRLF)
    ensures ParseHeaders(CONTENT_TYPE_PLAIN + CRLF + rest) == Some((Some(PlainText), None, rest))
  {
    var head := CONTENT_TYPE_PLAIN + CRLF;
    var s := head + rest;
    assert s[..|head|] == head;
    assert s[|head|..] == rest;
    assert !StartsWith(rest, LENGTH_PREFIX) by {
      if |LENGTH_PREFIX| <= |rest| {
        assert rest[..|LENGTH_PREFIX|][0] == '\r';
      }
    }
  }

  lemma ParseNoHeaders(rest: string)
    requires StartsWith(rest, CRLF)
    ensures ParseHeaders(rest) == Some((None, None, rest))
  {
    assert !StartsWith(rest, CONTENT_TYPE_PLAIN + CRLF) by {
      if |CONTENT_TYPE_PLAIN + CRLF| <= |rest| {
        assert rest[..|CONTENT_TYPE_PLAIN + CRLF|][0] == '\r';
      }
    }
  }

  lemma ParseBodyOf(body: string)
    ensures ParseBody(CRLF + BodyPart(body)) == Some(body)
  {
    var s := CRLF + BodyPart(body);
    assert s[..2] == CRLF;
    var b := s[2..];
    if body != "" {
      assert b == body + CRLF;
      assert b[|b| - 2..] == CRLF;
      assert b[..|b| - 2] == body;
    }
  }

  /** Reading a serialised response gives back everything the string shows:
      the response itself, except for a length stored without a content
      type. */
  lemma ParseGetResponseString(r: Response)
    ensures ParseResponse(GetResponseString(r)) == Some(Canonical(r))
  {
    var headers := HeaderLines(r.contentType, r.contentLength);
    var tail := CRLF + BodyPart(r.responseBody);
    assert GetResponseString(r) == StatusLine(r.status) + CRLF + (headers + tail);
    ParseStatusOf(r.status, headers + tail);
    assert tail[..2] == CRLF;
    ParseHeadersOf(r.contentType, r.contentLength, tail);
    ParseBodyOf(r.responseBody);
  }

  /** The serialiser ignores a length stored without a content type. */
  lemma GetResponseStringCanonical(r: Response)
    ensures GetResponseString(Canonical(r)) == GetResponseString(r)
  {
  }

  /** Two responses serialise to the same string exactly when they agree on
      everything the string shows. */
  lemma GetResponseStringInjective(a: Response, b: Response)
    ensures GetResponseString(a) == GetResponseString(b) <==> Canonical(a) == Canonical(b)
  {
    ParseGetResponseString(a);
    ParseGetResponseString(b);
    GetResponseStringCanonical(a);
    GetResponseStringCanonical(b);
  }

  /* ---------------------------------------------------------------------- */
  /* Shape of the wire string                                               */
  /* ---------------------------------------------------------------------- */

  /** The string starts with the status line of the status and a CRLF. */
  lemma StartsWithStatusLine(r: Response)
    ensures StartsWith(GetResponseString(r), StatusLine(r.status) + CRLF)
    ensures r.status == Ok ==> StartsWith(GetResponseString(r), "HTTP/1.1 200 OK\r\n")
    ensures r.status == NotFound ==> StartsWith(GetResponseString(r), "HTTP/1.1 404 Not Found\r\n")
  {
    var s := GetResponseString(r);
    var head := StatusLine(r.status) + CRLF;
    assert s == head + (HeaderLines(r.contentType, r.contentLength) + CRLF + BodyPart(r.responseBody));
    assert s[..|head|] == head;
  }

  /** Without a content type no header line is written, whatever length is
      stored: the status line is followed directly by the blank line. */
  lemma NoHeadersWithoutType(r: Response)
    requires r.contentType.None?
    ensures GetResponseString(r) == StatusLine(r.status) + CRLF + CRLF + BodyPart(r.responseBody)
  {
  }

  /** A Content-Length line is written exactly when there is a content type
      and a stored length; it then carries the stored length, in a decimal
      form that Rust's `usize` parser reads back. */
  lemma LengthLineWritten(r: Response)
    ensures var p := ParseResponse(GetResponseString(r));
      && p.Some?
      && (p.value.contentLength.Some? <==> r.contentType.Some? && r.contentLength.Some?)
      && (p.value.contentLength.Some? ==> p.value.contentLength == r.contentLength)
    ensures r.contentType.Some? && r.contentLength.Some? ==>
      ParseUsize(NatToString(r.contentLength.value)) == Some(r.contentLength.value)
  {
    ParseGetResponseString(r);
    if r.contentType.Some? && r.contentLength.Some? {
      ParseRendered(r.contentLength.value);
    }
  }

  /** The string ends with the body and a CRLF, or, for an empty body, right
      after the blank line that ends the header section. */
  lemma Ending(r: Response)
    ensures r.responseBody != "" ==> EndsWith(GetResponseString(r), r.responseBody + CRLF)
    ensures r.responseBody == "" ==> EndsWith(GetResponseString(r), CRLF + CRLF)
  {
    var front := StatusLine(r.status) + CRLF + HeaderLines(r.contentType, r.contentLength);
    assert GetResponseString(r) == (front + CRLF) + BodyPart(r.responseBody);
    if r.responseBody != "" {
      assert EndsWith(r.responseBody + CRLF, r.responseBody + CRLF);
      EndsWithAppend(front + CRLF, r.responseBody + CRLF, r.responseBody + CRLF);
    } else {
      assert (front + CRLF) + "" == front + CRLF;
      HeaderSectionEnds(r);
      EndsWithAppend(CRLF, front, CRLF);
    }
  }

  /** Helper: the status line and the header lines end in CRLF. */
  lemma HeaderSectionEnds(r: Response)
    ensures EndsWith(StatusLine(r.status) + CRLF + HeaderLines(r.contentType, r.contentLength), CRLF)
  {
    var status := StatusLine(r.status) + CRLF;
    var h := HeaderLines(r.contentType, r.contentLength);
    assert EndsWith(CRLF, CRLF);
    EndsWithAppend(StatusLine(r.status), CRLF, CRLF);
    if h == "" {
      assert status + h == status;
    } else {
      var pre := if r.contentLength.Some? then CONTENT_TYPE_PLAIN + CRLF + LENGTH_PREFIX + NatToString(r.contentLength.value)
                 else CONTENT_TYPE_PLAIN;
      assert h == pre + CRLF;
      EndsWithAppend(pre, CRLF, CRLF);
      EndsWithAppend(status, h, CRLF);
      assert status + h == StatusLine(r.status) + CRLF + h;
    }
  }

  /** An Ok response with no headers and no body is the bare status line and
      blank line. */
  lemma EmptyOk(contentLength: Option<Usize>)
    ensures GetResponseString(New(Ok, None, contentLength, "")) == "HTTP/1.1 200 OK\r\n\r\n"
  {
  }

  /** A plain-text answer with its length. */
  lemma PlainTextExample()
    ensures GetResponseString(New(Ok, Some(PlainText), Some(5), "hello"))
            == "HTTP/1.1 200 OK\r\n" + "Content-Type: text/plain\r\n" + "Content-Length: 5\r\n"
               + "\r\n" + "hello\r\n"
  {
    var r := New(Ok, Some(PlainText), Some(5), "hello");
    assert NatToString(5) == "5";
    assert HeaderLines(r.contentType, r.contentLength) == CONTENT_TYPE_PLAIN + CRLF + (LENGTH_PREFIX + "5" + CRLF);
    assert BodyPart(r.responseBody) == "hello" + CRLF;
    assert GetResponseString(r) == STATUS_OK + CRLF + (CONTENT_TYPE_PLAIN + CRLF + (LENGTH_PREFIX + "5" + CRLF)) + CRLF + ("hello" + CRLF);
  }

  /** Replacing the body changes only the body the string shows. */
  lemma SetBodyOnlyChangesBody(r: Response, body: string)
    ensures ParseResponse(GetResponseString(SetResponseBody(r, body)))
            == Some(Canonical(r).(responseBody := body))
  {
    ParseGetResponseString(SetResponseBody(r, body));
  }
}

=== FILE: routing.dfy ===
/** Routing: `Request::construct_response` as a classification of the request
    target.  The response constructors it calls and the file system it
    touches are outside the model, so the result is an abstract outcome that
    names what would be served; the directory files are served from is a
    parameter. */
module Routing {
  import opened Strings
  import opened Requests

  /** The content type routing hands to the response constructors.  It
      includes `OctetStream`, which the response serialiser's own content
      type does not have, so it is kept apart from `Responses.ContentType`.
      `OctetStream` is the type of a successful `FileGet`: the file is read
      outside the model, so no outcome here carries it. */
  datatype BodyType = PlainText | OctetStream

  /** What `construct_response` decides to answer. */
  datatype Outcome =
    | Root                                       // `Response::default()`
    | OkBody(body: string, contentType: BodyType)
    | NotFound
    | FileGet(path: string)                      // read the file as OctetStream, 404 if that fails
    | FilePost(path: string, content: string)    // write the file, 404 if that fails

  /** `url.split('/').skip(1)`: the pieces of the target after its first '/'. */
  function Segments(url: string): seq<string>
  {
    Split(url, "/")[1..]
  }

  /** The file path for `name` under `root`, joined as the server joins it:
      the separator is added only when `root` already ends in '/'. */
  function FilesPath(root: string, name: string): string
  {
    if !EndsWith(root, "/") then root + name else root + "/" + name
  }

  /** `Request::construct_response`.  A target other than "/" that holds no
      '/' has no segments, and indexing the first one aborts. */
  function ConstructResponse(req: Request, root: string): Result<Outcome>
  {
    var url := req.line.url;
    if url == "/" then Ok(Root)
    else
      var segs := Segments(url);
      if |segs| == 0 then Err(EmptySegments)
      else
        var head := segs[0];
        if head == "echo" && |segs| > 1 then Ok(OkBody(segs[1], PlainText))
        else if head == "user-agent" then
          match ReadFieldFromHeader(req, head)
          case Some(agent) => Ok(OkBody(agent, PlainText))
          case None => Ok(NotFound)
        else if head == "files" then
          if |segs| <= 1 then Ok(NotFound)
          else
            var path := FilesPath(root, segs[1]);
            match req.line.requestType
            case Get => Ok(FileGet(path))
            case Post => Ok(FilePost(path, req.body))
        else Ok(NotFound)
  }

  /* ---------------------------------------------------------------------- */
  /* Segments                                                               */
  /* ---------------------------------------------------------------------- */

  /** Every '/'-free decomposition of a target is the one the router sees:
      the target `p0/p1/.../pk` has the segments `p1, ..., pk`. */
  lemma SegmentsOf(parts: seq<string>)
    requires |parts| >= 1
    requires forall i :: 0 <= i < |parts| ==> '/' !in parts[i]
    ensures Segments(Join(parts, "/")) == parts[1..]
  {
    SplitCharUnique(parts, '/');
  }

  /** A target has no segments exactly when it holds no '/'; otherwise the
      text before the first '/' and the segments, joined by '/', give the
      target back. */
  lemma SegmentsSpec(url: string)
    ensures |Segments(url)| == 0 <==> '/' !in url
    ensures Join([Split(url, "/")[0]] + Segments(url), "/") == url
    ensures forall i :: 0 <= i < |Segments(url)| ==> '/' !in Segments(url)[i]
  {
    SplitCharSingle(url, '/');
    SplitSpec(url, "/");
    var pieces := Split(url, "/");
    assert [pieces[0]] + pieces[1..] == pieces;
    forall i | 0 <= i < |Segments(url)|
      ensures '/' !in Segments(url)[i]
    {
      assert Segments(url)[i] == pieces[i + 1];
      CharOccurrence(pieces[i + 1], '/');
    }
  }

  /** The path starts with the root, ends with the name, and holds one extra
      '/' between them exactly when the root already ends in '/'. */
  lemma FilesPathShape(root: string, name: string)
    ensures var path := FilesPath(root, name);
      && StartsWith(path, root)
      && EndsWith(path, name)
      && |path| == |root| + |name| + (if EndsWith(root, "/") then 1 else 0)
      && path[|root|..|path| - |name|] == (if EndsWith(root, "/") then "/" else "")
  {
    var path := FilesPath(root, name);
    assert path[..|root|] == root;
    assert path[|path| - |name|..] == name;
  }

  /* ---------------------------------------------------------------------- */
  /* Routes                                                                 */
  /* ---------------------------------------------------------------------- */

  /** The target "/" is the root page. */
  lemma RouteRoot(req: Request, root: string)
    requires req.line.url == "/"
    ensures ConstructResponse(req, root) == Ok(Root)
  {
  }

  /** A target is rejected exactly when it is not "/" and holds no '/'. */
  lemma RouteFails(req: Request, root: string)
    ensures ConstructResponse(req, root).Err? <==> '/' !in req.line.url
    ensures ConstructResponse(req, root).Err? ==> ConstructResponse(req, root).fault == EmptySegments
  {
    SegmentsSpec(req.line.url);
  }

  /** Helper: the target `parts` joined by '/' is not "/" when its second
      part is non-empty. */
  lemma JoinedNotRoot(parts: seq<string>)
    requires |parts| >= 2 && parts[1] != ""
    ensures Join(parts, "/") != "/"
  {
    var rest := Join(parts[1..], "/");
    assert Join(parts, "/") == parts[0] + "/" + rest;
    if |parts| > 2 {
      assert rest == parts[1] + "/" + Join(parts[2..], "/");
    }
  }

  /** `/echo/<x>` (with anything further after another '/') answers `x` as
      plain text; only the segment right after "echo" is used. */
  lemma RouteEcho(req: Request, root: string, parts: seq<string>)
    requires |parts| >= 3 && parts[1] == "echo"
    requires forall i :: 0 <= i < |parts| ==> '/' !in parts[i]
    requires req.line.url == Join(parts, "/")
    ensures ConstructResponse(req, root) == Ok(OkBody(parts[2], PlainText))
  {
    SegmentsOf(parts);
    JoinedNotRoot(parts);
  }

  /** `/user-agent` answers the User-Agent header as plain text, and is not
      found without one (the lookup ignores letter case, so any spelling of
      the field name gives the same answer). */
  lemma RouteUserAgent(req: Request, root: string, parts: seq<string>)
    requires |parts| >= 2 && parts[1] == "user-agent"
    requires forall i :: 0 <= i < |parts| ==> '/' !in parts[i]
    requires req.line.url == Join(parts, "/")
    ensures var agent := ReadFieldFromHeader(req, "user-agent");
      && (agent.Some? ==> ConstructResponse(req, root) == Ok(OkBody(agent.value, PlainText)))
      && (agent.None? ==> ConstructResponse(req, root) == Ok(NotFound))
  {
    SegmentsOf(parts);
    JoinedNotRoot(parts);
  }

  /** `/files/<name>` names the file `FilesPath(root, name)`: a GET reads it,
      a POST writes the request body to it. */
  lemma RouteFiles(req: Request, root: string, parts: seq<string>)
    requires |parts| >= 3 && parts[1] == "files"
    requires forall i :: 0 <= i < |parts| ==> '/' !in parts[i]
    requires req.line.url == Join(parts, "/")
    ensures req.line.requestType == Get ==>
      ConstructResponse(req, root) == Ok(FileGet(FilesPath(root, parts[2])))
    ensures req.line.requestType == Post ==>
      ConstructResponse(req, root) == Ok(FilePost(FilesPath(root, parts[2]), req.body))
  {
    SegmentsOf(parts);
    JoinedNotRoot(parts);
  }

  /** `/echo` with no text after it, and `/files` with no name after it,
      are not found. */
  lemma RouteMissingName(req: Request, root: string, pre: string, head: string)
    requires head == "echo" || head == "files"
    requires '/' !in pre
    requires req.line.url == pre + "/" + head
    ensures ConstructResponse(req, root) == Ok(NotFound)
  {
    var parts := [pre, head];
    assert Join(parts, "/") == req.line.url;
    SegmentsOf(parts);
    JoinedNotRoot(parts);
  }

  /** Any other first segment is not found, whatever follows it. */
  lemma RouteUnknown(req: Request, root: string, parts: seq<string>)
    requires |parts| >= 2
    requires parts[1] != "echo" && parts[1] != "user-agent" && parts[1] != "files"
    requires forall i :: 0 <= i < |parts| ==> '/' !in parts[i]
    requires req.line.url == Join(parts, "/") && req.line.url != "/"
    ensures ConstructResponse(req, root) == Ok(NotFound)
  {
    SegmentsOf(parts);
  }

  /** A route that succeeds never serves anything but these outcomes for the
      given target shapes: only `/files/...` touches a file, and the file is
      always under the root. */
  lemma FileOutcomesUnderRoot(req: Request, root: string)
    requires ConstructResponse(req, root).Ok?
    ensures var o := ConstructResponse(req, root).value;
      (o.FileGet? || o.FilePost?) ==>
        && |Segments(req.line.url)| >= 2
        && Segments(req.line.url)[0] == "files"
        && o.path == FilesPath(root, Segments(req.line.url)[1])
        && StartsWith(o.path, root)
  {
    var url := req.line.url;
    var segs := Segments(url);
    if url != "/" && |segs| >= 2 && segs[0] == "files" {
      FilesPathShape(root, segs[1]);
    }
  }
}

=== FILE: strings.dfy ===
/** Models of the Rust standard-library string operations that the HTTP layer
    relies on: `contains`, `split`, `split_once`, `join`, `starts_with`,
    `trim`, lower-casing, `usize` parsing and decimal formatting.
    Strings are sequences of Unicode scalar values. */
module Strings {

  datatype Option<+T> = None | Some(value: T)

  const CRLF: string := "\r\n"
  const DOUBLE_CRLF: string := "\r\n\r\n"

  /** Largest value of `usize` on a 64-bit target. */
  const USIZE_MAX: nat := 0xFFFF_FFFF_FFFF_FFFF

  /* ---------------------------------------------------------------------- */
  /* Searching                                                              */
  /* ---------------------------------------------------------------------- */

  /** `pat` occurs in `s` starting at index `i`. */
  predicate OccursAt(s: string, pat: string, i: int) {
    0 <= i && i + |pat| <= |s| && s[i..i + |pat|] == pat
  }

  /** The leftmost occurrence of `pat` in `s` at or after `from`. */
  function FindFrom(s: string, pat: string, from: nat): (r: Option<nat>)
    requires from <= |s|
    ensures r.Some? ==> from <= r.value && r.value + |pat| <= |s|
    decreases |s| - from
  {
    if from + |pat| > |s| then None
    else if s[from..from + |pat|] == pat then Some(from)
    else FindFrom(s, pat, from + 1)
  }

  lemma {:induction false} FindFromSpec(s: string, pat: string, from: nat)
    requires from <= |s|
    ensures var r := FindFrom(s, pat, from);
      && (r.Some? ==> from <= r.value && OccursAt(s, pat, r.value))
      && (forall j :: from <= j && (r.None? || j < r.value) ==> !OccursAt(s, pat, j))
    decreases |s| - from
  {
    if from + |pat| <= |s| && s[from..from + |pat|] != pat {
      FindFromSpec(s, pat, from + 1);
    }
  }

  /** Rust's `str::find`: the leftmost occurrence of `pat` in `s`. */
  function Find(s: string, pat: string): (r: Option<nat>)
    ensures r.Some? ==> r.value + |pat| <= |s|
  {
    FindFrom(s, pat, 0)
  }

  /** `Find` reports an occurrence, and no occurrence lies before it. */
  lemma FindSpec(s: string, pat: string)
    ensures Find(s, pat).Some? ==> OccursAt(s, pat, Find(s, pat).value)
    ensures forall j :: (Find(s, pat).None? || j < Find(s, pat).value) ==> !OccursAt(s, pat, j)
  {
    FindFromSpec(s, pat, 0);
  }

  /** Rust's `str::contains` for a string pattern. */
  predicate Contains(s: string, pat: string) {
    Find(s, pat).Some?
  }

  /** `Contains` means some occurrence exists. */
  lemma ContainsSpec(s: string, pat: string)
    ensures Contains(s, pat) <==> exists j :: OccursAt(s, pat, j)
  {
    FindSpec(s, pat);
  }

  predicate StartsWith(s: string, prefix: string) {
    |prefix| <= |s| && s[..|prefix|] == prefix
  }

  predicate EndsWith(s: string, suffix: string) {
    |suffix| <= |s| && s[|s| - |suffix|..] == suffix
  }

  /** A suffix stays a suffix when more text is put in front, and grows with
      whatever is appended to both. */
  lemma EndsWithAppend(a: string, b: string, c: string)
    requires EndsWith(b, c)
    ensures EndsWith(a + b, c)
    ensures EndsWith(b + a, c + a)
  {
    assert (a + b)[|a + b| - |c|..] == b[|b| - |c|..];
    assert (b + a)[|b + a| - |c + a|..] == b[|b| - |c|..] + a;
  }

  /** If nothing before `|a|` matches `pat`, the leftmost occurrence in
      `a + pat + b` is at `|a|`. */
  lemma FindAfterPrefix(a: string, pat: string, b: string)
    requires forall j :: 0 <= j < |a| ==> !OccursAt(a + pat + b, pat, j)
    ensures Find(a + pat + b, pat) == Some(|a|)
  {
    var s := a + pat + b;
    assert s[|a|..|a| + |pat|] == pat;
    assert OccursAt(s, pat, |a|);
    FindSpec(s, pat);
  }

  /* ---------------------------------------------------------------------- */
  /* Splitting and joining                                                  */
  /* ---------------------------------------------------------------------- */

  /** Rust's `slice::join`: the parts with `sep` between consecutive ones. */
  function Join(parts: seq<string>, sep: string): string
  {
    if |parts| == 0 then ""
    else if |parts| == 1 then parts[0]
    else parts[0] + sep + Join(parts[1..], sep)
  }

  /** Rust's `str::split` with a non-empty pattern: the pieces between the
      successive leftmost non-overlapping occurrences of `sep`. */
  function Split(s: string, sep: string): (r: seq<string>)
    requires |sep| > 0
    ensures |r| >= 1
    decreases |s|
  {
    match Find(s, sep)
    case None => [s]
    case Some(i) =>
      if i + |sep| <= |s| then [s[..i]] + Split(s[i + |sep|..], sep)
      else [s]
  }

  /** Splitting loses nothing: the pieces joined by the separator give the
      text back, and no piece contains the separator. */
  lemma {:induction false} SplitSpec(s: string, sep: string)
    requires |sep| > 0
    ensures Join(Split(s, sep), sep) == s
    ensures forall i :: 0 <= i < |Split(s, sep)| ==> !Contains(Split(s, sep)[i], sep)
    decreases |s|
  {
    FindSpec(s, sep);
    match Find(s, sep)
    case None =>
    case Some(i) =>
      var piece := s[..i];
      var tail := s[i + |sep|..];
      assert s == piece + sep + tail;
      forall j | 0 <= j
        ensures !OccursAt(piece, sep, j)
      {
        if j + |sep| <= |piece| {
          assert piece[j..j + |sep|] == s[j..j + |sep|];
          assert !OccursAt(s, sep, j);
        }
      }
      ContainsSpec(piece, sep);
      SplitSpec(tail, sep);
      var rest := Split(tail, sep);
      assert Split(s, sep) == [piece] + rest;
      assert ([piece] + rest)[1..] == rest;
  }

  /** The first piece of a split is the text before the leftmost occurrence
      of the separator, or the whole text when there is none. */
  lemma SplitFirstPiece(s: string, sep: string)
    requires |sep| > 0
    ensures Find(s, sep).None? ==> Split(s, sep)[0] == s
    ensures Find(s, sep).Some? ==> Split(s, sep)[0] == s[..Find(s, sep).value]
  {
    FindSpec(s, sep);
  }

  /** Splitting `a + sep + b` where no match starts inside `a` puts `a` first. */
  lemma SplitCons(a: string, sep: string, b: string)
    requires |sep| > 0
    requires forall j :: 0 <= j < |a| ==> !OccursAt(a + sep + b, sep, j)
    ensures Split(a + sep + b, sep) == [a] + Split(b, sep)
  {
    var s := a + sep + b;
    FindAfterPrefix(a, sep, b);
    assert s[..|a|] == a;
    assert s[|a| + |sep|..] == b;
  }

  /** A one-character pattern occurs exactly where that character sits. */
  lemma CharOccurrence(s: string, c: char)
    ensures Contains(s, [c]) <==> c in s
  {
    FindSpec(s, [c]);
    if c in s {
      var i :| 0 <= i < |s| && s[i] == c;
      assert s[i..i + 1] == [c];
      assert OccursAt(s, [c], i);
    }
    if Contains(s, [c]) {
      var i := Find(s, [c]).value;
      assert s[i..i + 1] == [c];
      assert s[i] == c;
    }
  }

  /** Splitting on a single character is the unique decomposition into
      pieces free of that character. */
  lemma {:induction false} SplitCharUnique(parts: seq<string>, c: char)
    requires |parts| >= 1
    requires forall i :: 0 <= i < |parts| ==> c !in parts[i]
    ensures Split(Join(parts, [c]), [c]) == parts
    decreases |parts|
  {
    var s := Join(parts, [c]);
    if |parts| == 1 {
      assert s == parts[0];
      CharOccurrence(s, c);
    } else {
      var a := parts[0];
      var b := Join(parts[1..], [c]);
      assert s == a + [c] + b;
      forall j | 0 <= j < |a|
        ensures !OccursAt(s, [c], j)
      {
        assert s[j] == a[j];
      }
      SplitCons(a, [c], b);
      forall i | 0 <= i < |parts[1..]|
        ensures c !in parts[1..][i]
      {
        assert parts[1..][i] == parts[i + 1];
      }
      SplitCharUnique(parts[1..], c);
    }
  }

  /** Splitting on a single character yields one piece exactly when the
      character does not occur. */
  lemma SplitCharSingle(s: string, c: char)
    ensures |Split(s, [c])| == 1 <==> c !in s
  {
    CharOccurrence(s, [c][0]);
    assert [[c][0]] == [c];
    if Find(s, [c]).Some? {
      var i := Find(s, [c]).value;
      assert Split(s, [c]) == [s[..i]] + Split(s[i + 1..], [c]);
    }
  }

  /** Rust's `str::split_once`: the text before and after the leftmost
      occurrence of `sep`. */
  function SplitOnce(s: string, sep: string): Option<(string, string)>
  {
    match Find(s, sep)
    case None => None
    case Some(i) =>
      if i + |sep| <= |s| then Some((s[..i], s[i + |sep|..])) else None
  }

  /** `split_once` fails exactly without an occurrence; otherwise it cuts at
      the leftmost one. */
  lemma SplitOnceSpec(s: string, sep: string)
    ensures SplitOnce(s, sep).None? <==> !Contains(s, sep)
    ensures SplitOnce(s, sep).Some? ==>
      var (a, b) := SplitOnce(s, sep).value;
      && s == a + sep + b
      && forall j :: 0 <= j < |a| ==> !OccursAt(s, sep, j)
  {
    FindSpec(s, sep);
    if Find(s, sep).Some? {
      var i := Find(s, sep).value;
      assert s == s[..i] + sep + s[i + |sep|..];
    }
  }

  /* ---------------------------------------------------------------------- */
  /* Whitespace and trimming                                                */
  /* ---------------------------------------------------------------------- */

  /** Rust's `char::is_whitespace`: the Unicode White_Space property. */
  predicate IsWhitespace(c: char) {
    || ('\t' <= c <= '\r')
    || c == ' '
    || c == '\U{85}'
    || c == '\U{A0}'
    || c == '\U{1680}'
    || ('\U{2000}' <= c <= '\U{200A}')
    || c == '\U{2028}'
    || c == '\U{2029}'
    || c == '\U{202F}'
    || c == '\U{205F}'
    || c == '\U{3000}'
  }

  predicate AllWhitespace(s: string) {
    forall i :: 0 <= i < |s| ==> IsWhitespace(s[i])
  }

  /** Neither end of `s` is whitespace. */
  predicate IsTrimmed(s: string) {
    s == [] || (!IsWhitespace(s[0]) && !IsWhitespace(s[|s| - 1]))
  }

  /** The first position at or after `i` that does not hold whitespace. */
  function SkipWhitespace(s: string, i: nat): (k: nat)
    requires i <= |s|
    ensures i <= k <= |s|
    decreases |s| - i
  {
    if i < |s| && IsWhitespace(s[i]) then SkipWhitespace(s, i + 1) else i
  }

  lemma {:induction false} SkipWhitespaceSpec(s: string, i: nat)
    requires i <= |s|
    ensures var k := SkipWhitespace(s, i);
      && (forall m :: i <= m < k ==> IsWhitespace(s[m]))
      && (k == |s| || !IsWhitespace(s[k]))
    decreases |s| - i
  {
    if i < |s| && IsWhitespace(s[i]) {
      SkipWhitespaceSpec(s, i + 1);
    }
  }

  /** The end of `s[..j]` once its trailing whitespace is dropped. */
  function BackWhitespace(s: string, j: nat): (k: nat)
    requires j <= |s|
    ensures k <= j
    decreases j
  {
    if j > 0 && IsWhitespace(s[j - 1]) then BackWhitespace(s, j - 1) else j
  }

  lemma {:induction false} BackWhitespaceSpec(s: string, j: nat)
    requires j <= |s|
    ensures var k := BackWhitespace(s, j);
      && (forall m :: k <= m < j ==> IsWhitespace(s[m]))
      && (k == 0 || !IsWhitespace(s[k - 1]))
    decreases j
  {
    if j > 0 && IsWhitespace(s[j - 1]) {
      BackWhitespaceSpec(s, j - 1);
    }
  }

  /** Rust's `str::trim_start`. */
  function TrimStart(s: string): (r: string)
    ensures |r| <= |s|
  {
    s[SkipWhitespace(s, 0)..]
  }

  /** Rust's `str::trim_end`. */
  function TrimEnd(s: string): (r: string)
    ensures |r| <= |s|
  {
    s[..BackWhitespace(s, |s|)]
  }

  /** Rust's `str::trim`: `s` with its leading and trailing whitespace removed. */
  function Trim(s: string): (r: string)
    ensures |r| <= |s| && IsTrimmed(r)
  {
    var t := TrimStart(s);
    SkipWhitespaceSpec(s, 0);
    BackWhitespaceSpec(t, |t|);
    TrimEnd(t)
  }

  /** `trim` keeps one contiguous slice of `s`, with only whitespace
      outside it. */
  lemma TrimSpec(s: string)
    ensures var r := Trim(s);
      exists i :: 0 <= i <= |s| - |r| && r == s[i..i + |r|]
                  && AllWhitespace(s[..i]) && AllWhitespace(s[i + |r|..])
  {
    var a := SkipWhitespace(s, 0);
    var t := s[a..];
    var b := BackWhitespace(t, |t|);
    SkipWhitespaceSpec(s, 0);
    BackWhitespaceSpec(t, |t|);
    var r := Trim(s);
    assert r == s[a..a + b];
    assert AllWhitespace(s[..a]);
    forall m | a + b <= m < |s|
      ensures IsWhitespace(s[m])
    {
      assert s[m] == t[m - a];
    }
    assert AllWhitespace(s[a + |r|..]);
  }

  /** Trimming yields the empty text exactly for all-whitespace text. */
  lemma TrimEmpty(s: string)
    ensures Trim(s) == "" <==> AllWhitespace(s)
  {
    var a := SkipWhitespace(s, 0);
    var t := s[a..];
    SkipWhitespaceSpec(s, 0);
    BackWhitespaceSpec(t, |t|);
    if Trim(s) == "" {
      assert BackWhitespace(t, |t|) == 0;
      assert a == |s|;
    }
  }

  /** Skipping whitespace across an all-whitespace prefix lands in the rest. */
  lemma {:induction false} SkipAcrossPrefix(w: string, x: string, i: nat)
    requires i <= |w|
    requires forall m :: i <= m < |w| ==> IsWhitespace(w[m])
    ensures SkipWhitespace(w + x, i) == |w| + SkipWhitespace(x, 0)
    decreases |w| - i
  {
    if i < |w| {
      assert (w + x)[i] == w[i];
      SkipAcrossPrefix(w, x, i + 1);
    } else {
      SkipShift(w, x, 0);
    }
  }

  /** Skipping whitespace in `x` is the same seen from inside `w + x`. */
  lemma {:induction false} SkipShift(w: string, x: string, j: nat)
    requires j <= |x|
    ensures SkipWhitespace(w + x, |w| + j) == |w| + SkipWhitespace(x, j)
    decreases |x| - j
  {
    if j < |x| {
      assert (w + x)[|w| + j] == x[j];
      SkipShift(w, x, j + 1);
    }
  }

  /** A whitespace character that can only sit at the very end of `s` is
      gone once `s` is trimmed. */
  lemma TrimRemovesTrailing(s: string, c: char)
    requires IsWhitespace(c)
    requires forall k :: 0 <= k < |s| - 1 ==> s[k] != c
    ensures c !in Trim(s)
  {
    var a := SkipWhitespace(s, 0);
    var t := s[a..];
    var b := BackWhitespace(t, |t|);
    var r := Trim(s);
    assert r == s[a..a + b];
    forall k | 0 <= k < |r|
      ensures r[k] != c
    {
      assert r[k] == s[a + k];
      if k == |r| - 1 {
        assert !IsWhitespace(r[|r| - 1]);
      }
    }
  }

  /** Whitespace in front of a text does not survive trimming. */
  lemma TrimDropsLeadingWhitespace(w: string, x: string)
    requires AllWhitespace(w)
    ensures Trim(w + x) == Trim(x)
  {
    SkipAcrossPrefix(w, x, 0);
    var k := SkipWhitespace(x, 0);
    assert TrimStart(w + x) == (w + x)[|w| + k..];
    assert (w + x)[|w| + k..] == x[k..];
  }

  /* ---------------------------------------------------------------------- */
  /* Letter case (ASCII)                                                    */
  /* ---------------------------------------------------------------------- */

  predicate IsUpper(c: char) {
    'A' <= c <= 'Z'
  }

  function LowerChar(c: char): char {
    if IsUpper(c) then (c as int + 32) as char else c
  }

  /** `a` and `b` are the same character up to ASCII letter case. */
  predicate SameLetter(a: char, b: char) {
    || a == b
    || (IsUpper(a) && b as int == a as int + 32)
    || (IsUpper(b) && a as int == b as int + 32)
  }

  predicate IsLowerCase(s: string) {
    forall i :: 0 <= i < |s| ==> !IsUpper(s[i])
  }

  predicate EqualIgnoringCase(a: string, b: string) {
    |a| == |b| && forall i :: 0 <= i < |a| ==> SameLetter(a[i], b[i])
  }

  /** Rust's `str::to_lowercase`, restricted to ASCII letters: the one
      lower-case text that matches `s` letter by letter up to case. */
  function ToLower(s: string): (r: string)
    ensures IsLowerCase(r)
    ensures EqualIgnoringCase(r, s)
  {
    seq(|s|, i requires 0 <= i < |s| => LowerChar(s[i]))
  }

  /** The lower-case letter that matches a character is its `LowerChar`. */
  lemma LowerCharUnique(a: char, b: char)
    requires !IsUpper(a) && SameLetter(a, b)
    ensures a == LowerChar(b)
  {
  }

  /** Two characters lower-case alike exactly when they match up to case. */
  lemma SameLetterLower(a: char, b: char)
    ensures LowerChar(a) == LowerChar(b) <==> SameLetter(a, b)
  {
  }

  /** Position by position, `ToLower` is `LowerChar`. */
  lemma ToLowerAt(s: string)
    ensures forall i :: 0 <= i < |s| ==> ToLower(s)[i] == LowerChar(s[i])
  {
    var l := ToLower(s);
    forall i | 0 <= i < |s|
      ensures l[i] == LowerChar(s[i])
    {
      LowerCharUnique(l[i], s[i]);
    }
  }

  /** Two texts lower-case to the same text exactly when they agree up to case. */
  lemma ToLowerEqual(a: string, b: string)
    ensures ToLower(a) == ToLower(b) <==> EqualIgnoringCase(a, b)
  {
    ToLowerAt(a);
    ToLowerAt(b);
    var la, lb := ToLower(a), ToLower(b);
    if la == lb {
      forall i | 0 <= i < |a|
        ensures SameLetter(a[i], b[i])
      {
        assert LowerChar(a[i]) == la[i] == lb[i] == LowerChar(b[i]);
        SameLetterLower(a[i], b[i]);
      }
    }
    if EqualIgnoringCase(a, b) {
      forall i | 0 <= i < |a|
        ensures la[i] == lb[i]
      {
        SameLetterLower(a[i], b[i]);
      }
    }
  }

  /** Lower-casing is idempotent. */
  lemma ToLowerIdempotent(s: string)
    ensures ToLower(ToLower(s)) == ToLower(s)
  {
    var l := ToLower(s);
    assert EqualIgnoringCase(l, s);
    ToLowerEqual(l, s);
  }

  /* ---------------------------------------------------------------------- */
  /* Decimal numbers                                                        */
  /* ---------------------------------------------------------------------- */

  predicate IsDigit(c: char) {
    '0' <= c <= '9'
  }

  predicate AllDigits(s: string) {
    forall i :: 0 <= i < |s| ==> IsDigit(s[i])
  }

  /** The value of a run of decimal digits, most significant first. */
  function DigitsValue(s: string): nat
    requires AllDigits(s)
    decreases |s|
  {
    if |s| == 0 then 0
    else DigitsValue(s[..|s| - 1]) * 10 + (s[|s| - 1] as int - '0' as int)
  }

  function DigitChar(d: nat): (c: char)
    requires d < 10
    ensures IsDigit(c) && c as int - '0' as int == d
  {
    ('0' as int + d) as char
  }

  /** A digit run without superfluous leading zeros. */
  predicate IsCanonicalDecimal(s: string) {
    |s| >= 1 && AllDigits(s) && (s[0] == '0' ==> s == "0")
  }

  /** Rust's `Display` for an unsigned integer: the canonical decimal
      rendering, whose digits evaluate back to `n`. */
  function NatToString(n: nat): (r: string)
    ensures IsCanonicalDecimal(r)
    ensures DigitsValue(r) == n
    decreases n
  {
    if n < 10 then [DigitChar(n)]
    else
      var prefix := NatToString(n / 10);
      var r := prefix + [DigitChar(n % 10)];
      assert r[..|r| - 1] == prefix;
      r
  }

  /** Every canonical decimal is the rendering of its own value. */
  lemma {:induction false} CanonicalDecimalRoundTrip(s: string)
    requires IsCanonicalDecimal(s)
    ensures NatToString(DigitsValue(s)) == s
    decreases |s|
  {
    var n := DigitsValue(s);
    if |s| == 1 {
      assert s[..|s| - 1] == "";
      assert n == s[0] as int - '0' as int;
      assert s == [s[0]];
    } else {
      var prefix := s[..|s| - 1];
      assert prefix[0] == s[0];
      assert s[0] != '0';
      DigitsValuePositive(prefix);
      CanonicalDecimalRoundTrip(prefix);
      var d := s[|s| - 1] as int - '0' as int;
      assert n == DigitsValue(prefix) * 10 + d;
      assert n / 10 == DigitsValue(prefix) && n % 10 == d;
      assert n >= 10;
      assert s == prefix + [s[|s| - 1]];
    }
  }

  /** A digit run with a non-zero leading digit has a positive value. */
  lemma {:induction false} DigitsValuePositive(s: string)
    requires |s| >= 1 && AllDigits(s) && s[0] != '0'
    ensures DigitsValue(s) > 0
    decreases |s|
  {
    if |s| > 1 {
      assert s[..|s| - 1][0] == s[0];
      DigitsValuePositive(s[..|s| - 1]);
    }
  }

  /** Rust's `str::parse::<usize>()`: an optional `+`, then at least one
      decimal digit, with a value that fits in 64 bits. */
  function ParseUsize(s: string): (r: Option<nat>)
    ensures r.Some? ==> r.value <= USIZE_MAX
  {
    var digits := if |s| > 0 && s[0] == '+' then s[1..] else s;
    if |digits| > 0 && AllDigits(digits) && DigitsValue(digits) <= USIZE_MAX then
      Some(DigitsValue(digits))
    else None
  }

  /** Parsing accepts exactly the digit runs, optionally signed with `+`,
      that fit in a `usize`; a `-` sign or an empty text is rejected. */
  lemma ParseUsizeAccepts(s: string, n: nat)
    ensures ParseUsize(s) == Some(n) <==>
      exists d :: (s == d || s == "+" + d) && |d| > 0 && AllDigits(d)
                  && DigitsValue(d) == n && n <= USIZE_MAX
  {
    if ParseUsize(s) == Some(n) {
      var d := if |s| > 0 && s[0] == '+' then s[1..] else s;
      if |s| > 0 && s[0] == '+' {
        assert s == "+" + d;
      }
    }
    if exists d :: (s == d || s == "+" + d) && |d| > 0 && AllDigits(d)
                   && DigitsValue(d) == n && n <= USIZE_MAX {
      var d :| (s == d || s == "+" + d) && |d| > 0 && AllDigits(d)
               && DigitsValue(d) == n && n <= USIZE_MAX;
      if s == "+" + d {
        assert s[1..] == d;
      } else {
        assert s[0] != '+' by {
          assert IsDigit(d[0]);
        }
      }
    }
  }

  /** Parsing the rendering of a `usize` gives it back. */
  lemma ParseRendered(n: nat)
    requires n <= USIZE_MAX
    ensures ParseUsize(NatToString(n)) == Some(n)
    ensures ParseUsize("+" + NatToString(n)) == Some(n)
  {
    var s := NatToString(n);
    assert s[0] != '+' by {
      assert IsDigit(s[0]);
    }
    assert ("+" + s)[1..] == s;
  }
}
